=== FILE: README.md ===
# tiskofy core, modelled in Dafny

tiskofy is a desktop app built with Tauri. The user pastes a YouTube or SoundCloud link, and the Rust back end
extracts the audio to an `.mp3` file with yt-dlp (and ffmpeg, when it has one). This project models the
back end's core and the parts of the front end that decide things:

- **Tool resolver** (`binaries.dfy`, `binaries_facts.dfy`, module `Binaries`). The process keeps two write-once
  slots: the yt-dlp path, and an optional ffmpeg path. Each slot is filled by an acquisition. An acquisition
  looks for the tool beside the running executable. If it is missing, it downloads yt-dlp with curl, or fetches
  the ffmpeg zip archive and installs its first entry named `…ffmpeg`; then it runs `chmod +x`. The class
  `ToolResolver` holds the two slots, the set of files on disk and a log of every external effect.
  The methods `EnsureYtDlp`, `EnsureFfmpeg`, `ScanArchive` and `InstallEntry` change that state. Each is proved
  against a pure function (`AcquireYtDlp`, `AcquireFfmpeg`, `FromArchive`, `Install`). Lemmas about these
  functions give the short-circuits, the split between errors and panics, and the archive scan. Scenario methods
  show how the slots behave across calls: a failure is retried, a success and an absence of ffmpeg are final.
  They also show that a download that fails after writing part of the file leaves a file that the next call trusts.
- **File name sanitizer** (`util.dfy`, module `Util`). `sanitize_filename` keeps exactly the ASCII letters and
  digits, space, `-` and `_`, in order. The lemmas prove this characterisation pins the output down, and that
  the filter is idempotent and distributes over concatenation.
- **Download command** (`downloader.dfy`, module `Downloader`). `download_audio` works as an ordered decision
  procedure. It checks the URL, resolves both tools, probes the title, asks for a folder and runs the
  extraction. Each step can end the command with a reply string. The resolver's state after the command is
  stated in full: a stored slot is never lost, and a yt-dlp error stops before ffmpeg is looked up. The out-file is proved to lie directly in
  the chosen folder.
- **Commands** (`commands.dfy`, module `Commands`). `download_youtube` and `download_soundcloud` run
  `download_audio` with a substring test on the URL. That test is case-sensitive and accepts the host name
  anywhere in the URL.
- **URL classifier** (`url_matcher.dfy`, module `UrlMatcher`). The front end's `match_url` is modelled with its
  seven regular expressions written out by hand as recognisers. Each recogniser covers the optional scheme, the
  optional `www.`, the literal host and path, the `[\w-]` runs and the permitted tails. Matching ignores ASCII
  case. The `i` flag without `u` also folds non-ASCII letters, but never onto ASCII ones, and every literal
  and class in the patterns is ASCII, so folding ASCII letters alone accepts the same URLs. The lemmas prove three things. Padding and case never change the
  class. The greedy run recogniser means what the regular expression means. No URL matches both services, so
  trying YouTube first hides nothing.
- **Download panel** (`app.dfy`, module `App`). This is the `ERROR_MSG` table and the Download button's handler.
  The class `DownloadPanel` holds `url`, `status`, `isLoading` and `err`. `Press` is the handler up to its
  `await`, and `Complete` is the reaction to the answer. Because the answer can still arrive after a cancel,
  a late `Ok…` reply overrides the `canceled` status.

The outside world is given as parameters: the executable's directory, curl's and chmod's outcomes, the zip
fetch and the archive's entries, the file-system errors, the yt-dlp runs, the folder dialog's answer and the
front end's `invoke` response. A panic (`unwrap` on a missing value) is the result `Task.Panicked`. Paths are
text, and `Os.Join` follows `PathBuf::join` on Unix.

Three behaviours of the code that are easy to miss:

- A failed or interrupted yt-dlp download can leave a partial file at the destination. Nothing removes it, and
  the next acquisition accepts it.
- chmod is handled the same way for both tools. If chmod cannot be spawned, the acquisition fails. Its exit
  status is ignored.
- If the executable's path has no parent directory, yt-dlp reports the error `no exe dir`. ffmpeg panics in the
  same case.

## Model

| member | source | states |
|---|---|---|
| Os.Join | src-tauri/src/downloader.rs:46 | an absolute name replaces the directory; otherwise the result starts with the directory, ends with the name, and is either the two joined or the two with a `/` between them, the `/` being added exactly when the directory is non-empty and does not end with one |
| Strings.ContainsIffOccurs | src-tauri/src/main.rs:10 | `contains` holds exactly when the pattern occupies some window of the text |
| Strings.ContainsInside | src-tauri/src/main.rs:15 | text around an occurrence never hides it from `contains` |
| Strings.TrimStart | src/utils/url.ts:22 | removes exactly the leading run of whitespace, leaving a suffix that starts with a non-space |
| Strings.TrimEnd | src-tauri/src/downloader.rs:34 | removes exactly the trailing run of whitespace, leaving a prefix that ends with a non-space |
| Strings.TrimIgnoresPadding | src/utils/url.ts:22 | trimming text padded with whitespace on both sides gives the trim of the text itself |
| Util.SanitizeFilename | src-tauri/src/util.rs:1-5 | every kept character is an ASCII letter or digit, space, `-` or `_`; the result is no longer than the title |
| Util.SanitizeIsSubsequence | src-tauri/src/util.rs:2-4 | the output is the title with characters deleted, order kept |
| Util.SanitizeKeepsExactlyAllowed | src-tauri/src/util.rs:3 | each allowed character occurs in the output as often as in the title, every other character not at all |
| Util.SubsequenceMultiset | src-tauri/src/util.rs:2-4 | a subsequence holds no character more often than the text it comes from |
| Util.SanitizeUnique | src-tauri/src/util.rs:1-5 | the two properties above determine the output: any string with both equals it |
| Util.SanitizeKeepsClean | src-tauri/src/util.rs:3 | a string of allowed characters passes through unchanged |
| Util.SanitizeIdempotent | src-tauri/src/util.rs:1-5 | sanitizing twice equals sanitizing once |
| Util.SanitizeConcat | src-tauri/src/util.rs:2-4 | the filter distributes over concatenation |
| Util.SanitizeDropsNonAscii | src-tauri/src/util.rs:3 | a title made wholly of non-ASCII characters, letters included, sanitizes to the empty name |
| Util.SanitizeExample | src-tauri/src/util.rs:3 | `é/a b` becomes `a b` |
| Binaries.ScanFrom | src-tauri/src/binaries.rs:70-72 | the scan stops at the first entry named `…ffmpeg` or the first unreadable entry, every earlier entry being readable and otherwise named; or it reports that no entry matches |
| Binaries.AcquireYtDlp | src-tauri/src/binaries.rs:19-47 | the only path answered is `yt-dlp` beside the executable and the only file that may appear is that one; nothing is done exactly when the directory is unknown or the tool already exists; every effect is a process spawn (curl, chmod), so the ffmpeg archive is never fetched |
| Binaries.Install | src-tauri/src/binaries.rs:74-82 | never a panic and never an absence: the target or an error; the steps done are a non-empty prefix of create, copy, chmod, all three on success; the target exists afterwards unless its creation failed |
| Binaries.AcquireFfmpeg | src-tauri/src/binaries.rs:49-88 | panics exactly when the executable has no parent directory; a path answered is `ffmpeg` beside the executable and exists afterwards; files only grow; the archive is fetched, first of all, exactly when the tool is not there yet |
| Binaries.FromArchive | src-tauri/src/binaries.rs:70-87 | never a panic; an absence exactly when every entry is readable and none is named `…ffmpeg`; a path answered is the target and exists; only existing entries are opened, and none after the selected one |
| Binaries.YtDlpLookup | src-tauri/src/binaries.rs:9-11 | a stored path is the answer with nothing changed; otherwise the answer, files and appended effects are those of `AcquireYtDlp`, and the slot holds a path afterwards exactly when the acquisition returned one; the ffmpeg slot is untouched, and files and effects only grow |
| Binaries.FfmpegLookup | src-tauri/src/binaries.rs:12-17 | a stored outcome, absence included, is the answer with nothing changed; otherwise the answer, files and appended effects are those of `AcquireFfmpeg`, and only a returned outcome is stored, never an error or a panic; the yt-dlp slot is untouched, and files and effects only grow |
| Binaries.ToolResolver.constructor | src-tauri/src/binaries.rs:6-7 | a new process starts with both slots empty and no effects |
| Binaries.ToolResolver.EnsureYtDlp | src-tauri/src/binaries.rs:19-47 | result, files on disk and effects appended are those of the acquisition `AcquireYtDlp` |
| Binaries.ToolResolver.EnsureFfmpeg | src-tauri/src/binaries.rs:49-88 | result (possibly a panic), files on disk and effects appended are those of `AcquireFfmpeg` |
| Binaries.ToolResolver.ScanArchive | src-tauri/src/binaries.rs:70-87 | the loop over the archive opens entries in index order and ends as `FromArchive` says: an install, an error or a successful absence |
| Binaries.ToolResolver.InstallEntry | src-tauri/src/binaries.rs:74-82 | create, copy and chmod in that order, stopping at the first error; the file exists once created |
| Binaries.ToolResolver.YtDlpPath | src-tauri/src/binaries.rs:9-11 | a filled slot is returned with no effect; otherwise the acquisition runs and the slot is filled exactly when it succeeds; answer and new state are those of `YtDlpLookup` |
| Binaries.ToolResolver.FfmpegPath | src-tauri/src/binaries.rs:12-17 | a filled slot, absence included, is returned with no effect; otherwise the acquisition runs and the slot is filled exactly when it returns a value; answer and new state are those of `FfmpegLookup` |
| BinariesFacts.ExistingToolIsTrusted | src-tauri/src/binaries.rs:23-55 | a tool file already beside the executable is returned as is, with no download and no other effect |
| BinariesFacts.NoExeDir | src-tauri/src/binaries.rs:20-50 | with no parent directory, yt-dlp fails with `no exe dir` and ffmpeg panics, neither having any effect |
| BinariesFacts.FailedDownloadSkipsChmod | src-tauri/src/binaries.rs:30-38 | an unsuccessful curl fails with `yt-dlp download failed` after the curl run alone |
| BinariesFacts.ChmodStatusIgnored | src-tauri/src/binaries.rs:40-46 | after a successful download only a failure to spawn chmod is an error, whatever chmod exits with; either way the effects are the curl run followed by `chmod +x` on the downloaded file |
| BinariesFacts.InstallChmodStatusIgnored | src-tauri/src/binaries.rs:74-82 | once the ffmpeg entry is written, only a failure to spawn chmod is an error, whatever chmod exits with; the file exists afterwards |
| BinariesFacts.ScanIgnoresLaterEntries | src-tauri/src/binaries.rs:70-83 | once the scan stops, appending entries changes nothing |
| BinariesFacts.ScanSelectsFirst | src-tauri/src/binaries.rs:70-83 | the first entry named `…ffmpeg` after readable, otherwise-named entries is selected, whatever follows |
| BinariesFacts.ScanSkips | src-tauri/src/binaries.rs:70-72 | readable entries with other names are passed over |
| BinariesFacts.ArchiveScanExample | src-tauri/src/binaries.rs:70-72 | the scan of `docs/readme`, `bin/sub/ffmpeg`, `ffmpeg.1` selects the second entry |
| BinariesFacts.FetchedArchive | src-tauri/src/binaries.rs:57-88 | once the archive is fetched and opened, `ensure_ffmpeg` answers what the scan and install answer, and its effects are the fetch followed by theirs |
| BinariesFacts.ArchiveInstallExample | src-tauri/src/binaries.rs:70-83 | with that archive open and no file-system error, entries 0 and 1 are opened and the second is installed |
| BinariesFacts.ArchiveExample | src-tauri/src/binaries.rs:57-83 | from `docs/readme`, `bin/sub/ffmpeg`, `ffmpeg.1` the second is installed and the third never opened, with the exact effect sequence |
| BinariesFacts.AbsenceIsNotAnError | src-tauri/src/binaries.rs:59-87 | an archive with no match yields a successful absence; fetch, body, zip and entry failures are errors with their messages |
| BinariesFacts.RetryAfterFailure | src-tauri/src/binaries.rs:9-11 | a failed yt-dlp acquisition is retried on the next call; after a success later calls return the same path with no effect |
| BinariesFacts.PartialDownloadIsTrusted | src-tauri/src/binaries.rs:25-38 | a failed download that left a file makes the next call return that file with no download |
| BinariesFacts.AbsenceIsFinal | src-tauri/src/binaries.rs:12-17 | a stored absence of ffmpeg is returned again without fetching the archive |
| BinariesFacts.FetchErrorIsRetried | src-tauri/src/binaries.rs:12-17 | an ffmpeg fetch error is not stored: the next call fetches again |
| Downloader.OutFileInFolder | src-tauri/src/downloader.rs:46 | the out-file's name has no `/` and ends with `.mp3`, and the file lies directly in the chosen folder |
| Downloader.Extract | src-tauri/src/downloader.rs:28-60 | reply and effects of the title probe, folder dialog and extraction run, for each outcome of each step |
| Downloader.DownloadAudio | src-tauri/src/downloader.rs:13-61 | reply, effects and the resolver's whole new state (both slots, files, log) are those `Downloaded` relates: an invalid URL leaves the resolver unchanged; the yt-dlp slot is looked up, a yt-dlp error ends the command, then the ffmpeg slot is looked up from the state yt-dlp left, an ffmpeg error counting as no ffmpeg and a panic ending the command; the rest is `Extracted` |
| DownloaderFacts.YtDlpErrorStops | src-tauri/src/downloader.rs:22-26 | after a yt-dlp error the ffmpeg slot is as it was and the ffmpeg archive was not fetched |
| DownloaderFacts.SlotsPersist | src-tauri/src/downloader.rs:22-26 | a stored slot keeps its value across a command, no file disappears, effects are only appended, and the yt-dlp slot stays empty only after a `yt-dlp error:` reply |
| DownloaderFacts.StoredToolsReused | src-tauri/src/downloader.rs:22-54 | with both slots filled a command leaves the resolver as it was and extracts with the stored paths |
| DownloaderFacts.ExtractedRun | src-tauri/src/downloader.rs:28-54 | with the title known and a folder chosen, the effects are exactly the title probe, the dialog and the extraction run writing to the out-file |
| DownloaderFacts.ExtractArgsShape | src-tauri/src/downloader.rs:47-54 | the run's arguments are `-x --audio-format mp3 -o`, the out-file and the URL, then `--ffmpeg-location` and the path exactly when one is known |
| DownloaderFacts.ExtractionArgs | src-tauri/src/downloader.rs:45-54 | once the title is known and a folder chosen, the last effect runs yt-dlp with six arguments, plus `--ffmpeg-location` and the path exactly when one is known |
| DownloaderFacts.FfmpegLocationPassed | src-tauri/src/downloader.rs:26-54 | the extraction run ends with `--ffmpeg-location` and the path the ffmpeg slot answered, and has no such option when it answered an absence or an error |
| DownloaderFacts.SuccessReply | src-tauri/src/downloader.rs:56-59 | the reply starts with `Ok: path=` exactly when the probe, the dialog and the extraction all succeeded, and then names the file the extraction was told to write |
| Commands.IsYouTubeUrl | src-tauri/src/main.rs:10 | the YouTube test holds exactly when `youtube.com` or `youtu.be` occurs somewhere in the URL |
| Commands.IsSoundCloudUrl | src-tauri/src/main.rs:15 | the SoundCloud test holds exactly when `soundcloud.com` occurs somewhere in the URL |
| Commands.AnywhereCounts | src-tauri/src/main.rs:10-15 | any text may surround the host name and the test still holds, so `xyoutube.comx` and `xsoundcloud.comx` pass |
| Commands.MissingFirstChar | src-tauri/src/main.rs:10-15 | text lacking the pattern's first character does not contain it |
| Commands.UpperCaseRefused | src-tauri/src/main.rs:10-15 | the tests are case-sensitive: a URL with no lower-case letter, such as `HTTPS://YOUTUBE.COM/…`, fails both |
| Commands.DownloadYouTube | src-tauri/src/main.rs:8-11 | `download_audio` with the YouTube test: a failing URL gets `invalid URL` with nothing changed; otherwise reply, effects and resolver state are as `Downloaded` relates, the extraction's with both slots filled |
| Commands.DownloadSoundCloud | src-tauri/src/main.rs:13-16 | the same with the SoundCloud test |
| UrlMatcher.IdRun | src/utils/url.ts:11-17 | the length of the longest `[\w-]` run at the start |
| UrlMatcher.RestStartsApart | src/utils/url.ts:11-17 | whatever a `[\w-]+` run is followed by in these patterns (a tail, `/`, `/sets/`) never starts with a `[\w-]` character |
| UrlMatcher.RunThenIsRegex | src/utils/url.ts:11-17 | taking the whole `[\w-]` run before what follows accepts exactly what the regular expression's `[\w-]+` accepts: some non-empty prefix run followed by an accepted remainder |
| UrlMatcher.AnyMatchesMeaning | src/utils/url.ts:27 | `some` holds exactly when some pattern of the list matches |
| UrlMatcher.MatchUrl | src/utils/url.ts:21-30 | the loop returns the first service in table order with a matching pattern on the trimmed URL, or none |
| UrlMatcherFacts.ClassifyIgnoresPadding | src/utils/url.ts:22 | whitespace around a URL never changes its class |
| UrlMatcherFacts.MatchesFold | src/utils/url.ts:6-17 | each pattern accepts a URL exactly when it accepts its case-folded form |
| UrlMatcherFacts.ClassifyIgnoresCase | src/utils/url.ts:6-17 | two URLs differing only in ASCII letter case get the same class |
| UrlMatcherFacts.ServicesDisjoint | src/utils/url.ts:23-29 | no URL matches both a YouTube and a SoundCloud pattern, so the order of the services never matters |
| UrlMatcherFacts.MatchHead | src/utils/url.ts:6-17 | in a matched URL the pattern's host literal starts right after the optional scheme and optional `www.`, read from single characters since no literal starts with `h` or `w` |
| UrlMatcherFacts.ClassifyMeaning | src/utils/url.ts:21-30 | the answer is YouTube exactly when a YouTube pattern matches the trimmed URL, SoundCloud exactly when a SoundCloud pattern does, and none exactly when neither does |
| UrlMatcherFacts.FoldIdentifies | src/utils/url.ts:6-17 | two characters fold alike exactly when they are equal or the upper- and lower-case forms of one ASCII letter |
| UrlMatcherFacts.ShortLinkRefusesWww | src/utils/url.ts:9 | no URL of the form `www.…`, `http://www.…` or `https://www.…` matches the `youtu.be` pattern |
| UrlMatcherFacts.VideoIdLength | src/utils/url.ts:6-9 | in any accepted id part, the eleven `[\w-]` characters are followed by nothing or by `&`, `#` or `?`, so a twelfth `[\w-]` character is refused |
| UrlMatcherFacts.SoundCloudFragment | src/utils/url.ts:15-17 | in every URL a SoundCloud pattern matches, each `#` comes after a `?`: no bare fragment |
| UrlMatcherFacts.OptionalTailAccepted | src/utils/url.ts:6-17 | nothing, or a query mark followed by anything but a line terminator, is accepted as the optional tail: `&`, `#` or `?` for YouTube, `?` for SoundCloud |
| UrlMatcherFacts.RunAccepted | src/utils/url.ts:11-17 | a non-empty `[\w-]` run followed by anything the rest of the pattern accepts is accepted |
| UrlMatcherFacts.PrefixesAccepted | src/utils/url.ts:6-17 | an accepted body may be preceded by no scheme, `http://` or `https://`, and by `www.` except in the `youtu.be` pattern |
| UrlMatcherFacts.VideoIdAccepted | src/utils/url.ts:6-9 | eleven `[\w-]` characters followed by an optional `&#?` tail form a video id part |
| UrlMatcherFacts.VideoAccepted | src/utils/url.ts:6-9 | each of the watch, shorts, embed and `youtu.be` patterns accepts, for any scheme and `www.` it allows, its literal followed by any eleven `[\w-]` characters and an optional `&#?` tail |
| UrlMatcherFacts.PlaylistAccepted | src/utils/url.ts:11 | the playlist pattern accepts any scheme, optional `www.`, `youtube.com/playlist?list=`, any non-empty `[\w-]` run and an optional `&#?` tail |
| UrlMatcherFacts.TrackAccepted | src/utils/url.ts:15 | the track pattern accepts any scheme, optional `www.`, `soundcloud.com/`, an artist run, `/`, a track run and an optional `?` query |
| UrlMatcherFacts.SetAccepted | src/utils/url.ts:17 | the set pattern accepts any scheme, optional `www.`, `soundcloud.com/`, an artist run, `/sets/`, a set run and an optional `?` query |
| App.MessagesCoverStatuses | src/App.tsx:19-39 | `ERROR_MSG` has an entry for every status and no other key, and no two statuses share a name |
| App.ResponseStatus | src/App.tsx:65-84 | only the four outcomes a reply can report (`completed`, `canceled`, `invalid-url`, `unknown`) are ever selected, and an empty reply selects none |
| App.ResponsePrefixes | src/App.tsx:65-84 | each status is chosen exactly when its own prefix is present, since the four prefixes exclude one another; `none` and `processing` are never chosen |
| App.BackendReplies | src/App.tsx:65-85 | `invalid URL`, `canceled` and `Ok: path=…` select their statuses; every `yt-dlp …` failure selects none |
| App.DownloadPanel.constructor | src/App.tsx:42-45 | the panel starts with an empty URL, status `none`, nothing loading and no error |
| App.DownloadPanel.Edit | src/App.tsx:107 | typing replaces the URL and nothing else, so it keeps `Valid` (while `isLoading` is set, the status is `processing`) |
| App.DownloadPanel.Press | src/App.tsx:47-61 | while loading it cancels without a call; a blank URL gives `invalid-url` without a call; otherwise it starts processing and sends the URL; from any state it leaves `Valid` holding: while `isLoading` is set, the status is `processing` |
| App.DownloadPanel.Complete | src/App.tsx:62-90 | nothing is loading afterwards; a reply sets the status its prefix selects or keeps the old one; an exception gives `unknown` and stores the error |
| App.UnrecognisedReply | src/App.tsx:85 | an unrecognised reply leaves status `processing` with nothing loading |
| App.CancelThenReply | src/App.tsx:47-90 | a cancel does not stop the pending call: its later `Ok…` reply turns `canceled` into `completed` |

## Left out

- Concurrency: `OnceCell` makes concurrent first callers wait for a single attempt. The model runs calls one
  after another, so it covers the memo semantics but not the waiting.
- Network, processes and archives: curl, chmod, `reqwest`, zip parsing, `io::copy` and the yt-dlp runs are
  outcomes given as parameters. The archive is a sequence of entry names. File contents are not modelled; a
  file either exists or does not.
- The folder dialog's starting directory (`download_dir`, with `~/Downloads` as the fallback) is not modelled.
  It does not influence the reply.
- `String::from_utf8_lossy`: the outputs of yt-dlp are taken as text already decoded.
- `to_str().unwrap()` on a path that is not UTF-8 cannot panic here, because paths are text.
- Windows builds, where the ffmpeg chmod is compiled out, are not modelled.
- `main` apart from the two URL tests: plugin setup, the window effects and the handler registration.
- The front end invokes `download_mp3`, a command the back end does not register. The response is therefore an
  arbitrary reply or exception, given as a parameter.
- React rendering, `console.log` and the stylesheet.
- JavaScript strings are UTF-16, while the model works on code points. For these patterns the two agree:
  characters outside the Basic Multilingual Plane are never `[\w-]`, and `.` accepts both of their halves.

=== FILE: app.dfy ===
/** The download panel of the front end (src/App.tsx): its status messages and the state changes of the
    Download button's handler, which calls the back end and then reacts to its answer. */
module App {
  import opened Wrappers
  import opened Strings

  /** The panel's status values. */
  datatype Status = Completed | InvalidUrl | NoStatus | Processing | Canceled | Unknown

  /** The string each status is written as. */
  function Name(s: Status): (n: string)
    ensures n != []
  {
    match s
    case Completed => "completed"
    case InvalidUrl => "invalid-url"
    case NoStatus => "none"
    case Processing => "processing"
    case Canceled => "canceled"
    case Unknown => "unknown"
  }

  /** The message shown for each status. */
  const ERROR_MSG: map<string, string> := map[
    "completed" := "\U{2705} The download is complete.",
    "invalid-url" := "\U{2753} The URL is wrong. Please check the YouTube video URL.",
    "unknown" := "\U{274C} An unexpected error has occurred.",
    "processing" := "\U{1F4C1} busy extracting the audio from the YouTube clip...",
    "canceled" := "\U{1F97A} Oh, you canceled! That\U{2019}s okay\U{2014}just press the Download button again to continue.",
    "none" := "..."
  ]

  /** The message table covers every status and nothing else, and no two statuses share a key. */
  lemma MessagesCoverStatuses()
    ensures forall s: Status :: Name(s) in ERROR_MSG
    ensures forall k :: k in ERROR_MSG ==> exists s: Status :: Name(s) == k
    ensures forall s, t: Status :: Name(s) == Name(t) ==> s == t
  {
    assert Name(Completed) in ERROR_MSG && Name(InvalidUrl) in ERROR_MSG && Name(NoStatus) in ERROR_MSG;
    assert Name(Processing) in ERROR_MSG && Name(Canceled) in ERROR_MSG && Name(Unknown) in ERROR_MSG;
    forall k | k in ERROR_MSG ensures exists s: Status :: Name(s) == k {
      if k == "completed" { assert Name(Completed) == k; }
      else if k == "invalid-url" { assert Name(InvalidUrl) == k; }
      else if k == "none" { assert Name(NoStatus) == k; }
      else if k == "processing" { assert Name(Processing) == k; }
      else if k == "canceled" { assert Name(Canceled) == k; }
      else { assert Name(Unknown) == k; }
    }
    forall s, t: Status | Name(s) == Name(t) ensures s == t {
      assert Name(s)[0] == Name(t)[0] && |Name(s)| == |Name(t)|;
    }
  }

  /** What `invoke` gives back: a reply string, or a thrown error. */
  datatype Response = Reply(text: string) | Thrown(error: string)

  /** The status a reply string selects, by its first prefix that matches among `Error`, `Ok`, `canceled`
      and `invalid`; any other reply selects none. */
  function ResponseStatus(text: string): (r: Option<Status>)
    // Only the four outcomes a reply can report are ever selected, and an empty reply selects none.
    ensures r.Some? ==> text != [] && r.value in {Completed, Canceled, InvalidUrl, Unknown}
  {
    if StartsWith(text, "Error") then Some(Unknown)
    else if StartsWith(text, "Ok") then Some(Completed)
    else if StartsWith(text, "canceled") then Some(Canceled)
    else if StartsWith(text, "invalid") then Some(InvalidUrl)
    else None
  }

  /** The four prefixes exclude one another, so the order in which they are tried does not matter: each
      status is selected exactly when its own prefix is present. */
  lemma ResponsePrefixes(text: string)
    ensures ResponseStatus(text) == Some(Unknown) <==> StartsWith(text, "Error")
    ensures ResponseStatus(text) == Some(Completed) <==> StartsWith(text, "Ok")
    ensures ResponseStatus(text) == Some(Canceled) <==> StartsWith(text, "canceled")
    ensures ResponseStatus(text) == Some(InvalidUrl) <==> StartsWith(text, "invalid")
    ensures ResponseStatus(text) == None <==>
      !StartsWith(text, "Error") && !StartsWith(text, "Ok") && !StartsWith(text, "canceled") && !StartsWith(text, "invalid")
    ensures ResponseStatus(text) != Some(NoStatus) && ResponseStatus(text) != Some(Processing)
  {
    if |text| > 0 {
      assert StartsWith(text, "Error") ==> text[0] == 'E';
      assert StartsWith(text, "Ok") ==> text[0] == 'O';
      assert StartsWith(text, "canceled") ==> text[0] == 'c';
      assert StartsWith(text, "invalid") ==> text[0] == 'i';
    }
  }

  /** How the replies of the download commands are read: a refused URL, a cancelled dialog and a finished
      extraction each select their status, while every `yt-dlp …` failure selects none. */
  lemma BackendReplies(path: string, detail: string)
    ensures ResponseStatus("invalid URL") == Some(InvalidUrl)
    ensures ResponseStatus("canceled") == Some(Canceled)
    ensures ResponseStatus("Ok: path=" + path) == Some(Completed)
    ensures ResponseStatus("yt-dlp " + detail) == None
  {
    assert ("Ok: path=" + path)[..2] == "Ok";
    ResponsePrefixes("yt-dlp " + detail);
    assert ("yt-dlp " + detail)[0] == 'y';
  }

  /** The panel's state: the text field and the three state variables the handler sets. */
  class DownloadPanel {
    var url: string
    var status: Status
    var isLoading: bool
    var err: string

    /** While `isLoading` is set, the status is `processing`. A cancelled call is still pending but no
        longer loading, so its status may differ. The constructor establishes it, `Press` and `Complete`
        establish it from any state, and `Edit` keeps it. */
    predicate Valid()
      reads this
    {
      isLoading ==> status == Processing
    }

    /** The panel as first shown: an empty field, no status, no call pending, no error. */
    constructor()
      ensures url == [] && status == NoStatus && !isLoading && err == []
      ensures Valid()
    {
      url, status, isLoading, err := [], NoStatus, false, [];
    }

    /** Typing in the text field replaces the URL and nothing else. */
    method Edit(text: string)
      modifies this
      ensures url == text && status == old(status) && isLoading == old(isLoading) && err == old(err)
      ensures Valid() <==> old(Valid())
    {
      url := text;
    }

    /** The Download button, up to the `await`: a press while loading cancels (without calling the back
        end), a blank URL is refused, and otherwise the panel starts processing and `invoked` is the URL
        sent to the back end. */
    method Press() returns (invoked: Option<string>)
      modifies this
      ensures old(isLoading) ==> status == Canceled && !isLoading && invoked == None
      ensures !old(isLoading) && Trim(old(url), IsJsWhitespace) == [] ==>
        status == InvalidUrl && isLoading == old(isLoading) && invoked == None
      ensures !old(isLoading) && Trim(old(url), IsJsWhitespace) != [] ==>
        status == Processing && isLoading && invoked == Some(url)
      ensures url == old(url) && err == old(err)
      ensures Valid()
    {
      var blank := Trim(url, IsJsWhitespace) == [];
      if isLoading {
        status := Canceled;
        isLoading := false;
        invoked := None;
      } else if blank {
        status := InvalidUrl;
        invoked := None;
      } else {
        isLoading := true;
        status := Processing;
        invoked := Some(url);
      }
    }

    /** The Download button, after the `await`: the reply's prefix picks the status (an unrecognised reply
        keeps the current one), a thrown error means `unknown` and is kept in `err`, and either way
        nothing is loading any more. */
    method Complete(response: Response)
      modifies this
      ensures !isLoading && url == old(url)
      ensures response.Reply? ==>
        status == (if ResponseStatus(response.text).Some? then ResponseStatus(response.text).value else old(status))
        && err == old(err)
      ensures response.Thrown? ==> status == Unknown && err == response.error
      ensures Valid()
    {
      match response {
        case Thrown(e) =>
          isLoading := false;
          status := Unknown;
          err := e;
        case Reply(text) =>
          var chosen := ResponseStatus(text);
          if chosen.Some? {
            status := chosen.value;
          }
          isLoading := false;
      }
    }
  }

  /** A reply the back end does not recognise leaves the panel saying `processing` with nothing loading. */
  method UnrecognisedReply(url: string, detail: string) returns (status: Status, loading: bool)
    requires Trim(url, IsJsWhitespace) != []
    ensures status == Processing && !loading
  {
    var panel := new DownloadPanel();
    panel.Edit(url);
    var invoked := panel.Press();
    BackendReplies("", detail);
    panel.Complete(Reply("yt-dlp " + detail));
    status, loading := panel.status, panel.isLoading;
  }

  /** Cancelling does not stop the pending call: when its reply arrives afterwards it overrides the
      `canceled` status, here with `completed`. */
  method CancelThenReply(url: string, path: string) returns (afterCancel: Status, afterReply: Status)
    requires Trim(url, IsJsWhitespace) != []
    ensures afterCancel == Canceled && afterReply == Completed
  {
    var panel := new DownloadPanel();
    panel.Edit(url);
    var first := panel.Press();
    var second := panel.Press();
    afterCancel := panel.status;
    BackendReplies(path, "");
    panel.Complete(Reply("Ok: path=" + path));
    afterReply := panel.status;
  }
}

=== FILE: binaries.dfy ===
/** The tool resolver (src-tauri/src/binaries.rs): two process-wide write-once slots, `YT_DLP` for the
    path of yt-dlp and `FFMPEG` for the optional path of ffmpeg, each filled by an acquisition that first
    looks beside the running executable and otherwise downloads the tool. */
module Binaries {
  import opened Wrappers
  import opened Strings
  import opened Os

  const YT_DLP_URL := "https://github.com/yt-dlp/yt-dlp/releases/latest/download/yt-dlp"
  const FFMPEG_ZIP_URL := "https://evermeet.cx/ffmpeg/ffmpeg-118896-g9f0970ee35.zip"

  /** `env::current_exe()?.parent()`: an error, an executable path without a parent, or its directory. */
  datatype ExeDir = ExeUnknown(error: string) | NoParent | Dir(path: Path)

  /** `curl -L <url> -o <path>`: not spawned, or exited; either way it may have left a file behind. */
  datatype CurlRun = CurlNotSpawned(error: string) | CurlExited(success: bool, leftFile: bool)

  /** `archive.by_index(i)`: an entry and its name, or the error reading it. */
  datatype Entry = Named(name: string) | Unreadable(error: string)

  /** `reqwest::get`, `resp.bytes()` and `ZipArchive::new`: the first that fails, or the archive's entries. */
  datatype ZipFetch = RequestFailed(error: string) | BodyFailed(error: string) | NotAZip(error: string)
                    | Archive(entries: seq<Entry>)

  /** What the outside world answers during an acquisition. `createError` and `copyError` are the
      failures of `File::create` and `io::copy`, if any. */
  datatype Env = Env(exe: ExeDir, curl: CurlRun, ytChmod: Status,
                     zip: ZipFetch, createError: Option<string>, copyError: Option<string>, ffChmod: Status)

  /** What an acquisition returns, which files then exist, and the effects it had, in order. */
  datatype Acquisition<R> = Acquisition(result: R, files: set<Path>, effects: seq<Effect>)

  function CurlArgs(target: Path): seq<string> {
    ["-L", YT_DLP_URL, "-o", target]
  }

  function Chmod(target: Path): Effect {
    Spawn("chmod", ["+x", target])
  }

  /** `ensure_yt_dlp`, given the files that exist. */
  function AcquireYtDlp(env: Env, files: set<Path>): (a: Acquisition<Result<Path>>)
    // The only path it can answer is `yt-dlp` beside the executable, and no file but that one appears.
    ensures a.result.Ok? ==> env.exe.Dir? && a.result.value == Join(env.exe.path, "yt-dlp")
    ensures files <= a.files && (env.exe.Dir? ==> a.files <= files + {Join(env.exe.path, "yt-dlp")})
    // Nothing is done when the directory is unknown or the tool is already there.
    ensures a.effects == [] <==> !(env.exe.Dir? && Join(env.exe.path, "yt-dlp") !in files)
    ensures a.effects == [] ==> a.files == files
    // It only runs processes (curl, then chmod): it never fetches the ffmpeg archive.
    ensures forall i :: 0 <= i < |a.effects| ==> a.effects[i].Spawn?
  {
    match env.exe
    case ExeUnknown(e) => Acquisition(Err(e), files, [])
    case NoParent => Acquisition(Err("no exe dir"), files, [])
    case Dir(dir) =>
      var target := Join(dir, "yt-dlp");
      if target in files then Acquisition(Ok(target), files, [])
      else
        var curl := [Spawn("curl", CurlArgs(target))];
        match env.curl
        case CurlNotSpawned(e) => Acquisition(Err(e), files, curl)
        case CurlExited(success, leftFile) =>
          var after := if leftFile then files + {target} else files;
          if !success then Acquisition(Err("yt-dlp download failed"), after, curl)
          else if env.ytChmod.SpawnFailed? then Acquisition(Err(env.ytChmod.error), after, curl + [Chmod(target)])
          else Acquisition(Ok(target), after, curl + [Chmod(target)])
  }

  /** How the scan of the archive ends: at the first entry named `…ffmpeg`, at the first entry that cannot
      be read, or after the last entry. */
  datatype Scan = Selected(index: nat, name: string) | Broken(index: nat, error: string) | Exhausted

  predicate IsFfmpegName(name: string) {
    EndsWith(name, "ffmpeg")
  }

  /** Entries `lo` up to `hi` were read and none is named `…ffmpeg`. */
  ghost predicate Skipped(entries: seq<Entry>, lo: nat, hi: nat)
    requires lo <= hi <= |entries|
  {
    forall j :: lo <= j < hi ==> entries[j].Named? && !IsFfmpegName(entries[j].name)
  }

  /** The scan from index `from` on, in index order. */
  function ScanFrom(entries: seq<Entry>, from: nat): (s: Scan)
    requires from <= |entries|
    ensures s.Selected? ==> from <= s.index < |entries| && entries[s.index] == Named(s.name)
                            && IsFfmpegName(s.name) && Skipped(entries, from, s.index)
    ensures s.Broken? ==> from <= s.index < |entries| && entries[s.index] == Unreadable(s.error)
                          && Skipped(entries, from, s.index)
    ensures s.Exhausted? ==> Skipped(entries, from, |entries|)
    decreases |entries| - from
  {
    if from == |entries| then Exhausted
    else match entries[from]
      case Unreadable(e) => Broken(from, e)
      case Named(name) => if IsFfmpegName(name) then Selected(from, name) else ScanFrom(entries, from + 1)
  }

  /** `OpenEntry(0)`, …, `OpenEntry(n - 1)`. */
  function Opened(n: nat): (r: seq<Effect>)
    ensures |r| == n && forall i :: 0 <= i < n ==> r[i] == OpenEntry(i)
  {
    if n == 0 then [] else Opened(n - 1) + [OpenEntry(n - 1)]
  }

  /** Writing entry `index` to `target`: create the file, copy the entry into it, `chmod +x` it. */
  function Install(env: Env, index: nat, target: Path, files: set<Path>): (a: Acquisition<Task<Result<Option<Path>>>>)
    // Never a panic and never an absence: the target, or an error.
    ensures a.result.Done? && (a.result.value.Ok? ==> a.result.value.value == Some(target))
    // The steps done are a non-empty prefix of create, copy, chmod; all three when it succeeds.
    ensures a.effects != [] && a.effects <= [CreateFile(target), CopyEntry(index, target), Chmod(target)]
    ensures a.result.value.Ok? ==> a.effects == [CreateFile(target), CopyEntry(index, target), Chmod(target)]
    ensures a.files == if env.createError.Some? then files else files + {target}
  {
    if env.createError.Some? then Acquisition(Done(Err(env.createError.value)), files, [CreateFile(target)])
    else
      var created := files + {target};
      if env.copyError.Some? then
        Acquisition(Done(Err(env.copyError.value)), created, [CreateFile(target), CopyEntry(index, target)])
      else
        var effects := [CreateFile(target), CopyEntry(index, target), Chmod(target)];
        if env.ffChmod.SpawnFailed? then Acquisition(Done(Err(env.ffChmod.error)), created, effects)
        else Acquisition(Done(Ok(Some(target))), created, effects)
  }

  /** `ensure_ffmpeg`, given the files that exist. */
  function AcquireFfmpeg(env: Env, files: set<Path>): (a: Acquisition<Task<Result<Option<Path>>>>)
    // It panics exactly when the executable has no parent directory.
    ensures a.result.Panicked? <==> env.exe.NoParent?
    // A path it answers is `ffmpeg` beside the executable, and that file then exists.
    ensures a.result.Done? && a.result.value.Ok? && a.result.value.value.Some? ==>
      env.exe.Dir? && a.result.value.value.value == Join(env.exe.path, "ffmpeg") && a.result.value.value.value in a.files
    ensures files <= a.files
    // The archive is fetched, first of all, exactly when the tool is not there yet.
    ensures (a.effects != [] && a.effects[0] == HttpGet(FFMPEG_ZIP_URL)) <==> (env.exe.Dir? && Join(env.exe.path, "ffmpeg") !in files)
  {
    match env.exe
    case ExeUnknown(e) => Acquisition(Done(Err(e)), files, [])
    case NoParent => Acquisition(Panicked, files, [])
    case Dir(dir) =>
      var target := Join(dir, "ffmpeg");
      if target in files then Acquisition(Done(Ok(Some(target))), files, [])
      else
        var fetched := [HttpGet(FFMPEG_ZIP_URL)];
        match env.zip
        case RequestFailed(e) => Acquisition(Done(Err("download error: " + e)), files, fetched)
        case BodyFailed(e) => Acquisition(Done(Err("read body error: " + e)), files, fetched)
        case NotAZip(e) => Acquisition(Done(Err("zip error: " + e)), files, fetched)
        case Archive(entries) =>
          var a := FromArchive(env, entries, target, files);
          Acquisition(a.result, a.files, fetched + a.effects)
  }

  /** The part of `ensure_ffmpeg` after the archive is open: the scan, and the install of the entry it selects. */
  function FromArchive(env: Env, entries: seq<Entry>, target: Path, files: set<Path>)
    : (a: Acquisition<Task<Result<Option<Path>>>>)
    ensures a.result.Done?
    // An absence exactly when no entry is named `…ffmpeg` and every entry is readable.
    ensures a.result == Done(Ok(None)) <==> ScanFrom(entries, 0).Exhausted?
    // A path answered is the target, which then exists.
    ensures a.result.value.Ok? && a.result.value.value.Some? ==> a.result.value.value.value == target && target in a.files
    // No entry after a selected `…ffmpeg` entry is opened.
    ensures ScanFrom(entries, 0).Selected? ==> OpenEntry(ScanFrom(entries, 0).index + 1) !in a.effects
    // More generally, only existing entries are opened, and none after a selected one.
    ensures forall j: nat :: OpenEntry(j) in a.effects ==>
      j < |entries| && (ScanFrom(entries, 0).Selected? ==> j <= ScanFrom(entries, 0).index)
  {
    match ScanFrom(entries, 0)
    case Exhausted => Acquisition(Done(Ok(None)), files, Opened(|entries|))
    case Broken(i, e) => Acquisition(Done(Err(e)), files, Opened(i + 1))
    case Selected(i, _) =>
      var install := Install(env, i, target, files);
      Acquisition(install.result, install.files, Opened(i + 1) + install.effects)
  }

  /** What the resolver keeps for the whole process: the two slots, the files on disk and every effect
      so far. */
  datatype Slots = Slots(ytDlp: Option<Path>, ffmpeg: Option<Option<Path>>, files: set<Path>, log: seq<Effect>)

  /** The answer of a slot lookup and the state it leaves behind. */
  datatype Lookup<R> = Lookup(result: R, after: Slots)

  /** `yt_dlp_path` on values: a stored path is the answer; otherwise `ensure_yt_dlp` runs and only a
      path it returns is stored. The ffmpeg slot is never touched, files and effects only grow. */
  function YtDlpLookup(env: Env, s: Slots): (l: Lookup<Result<Path>>)
    ensures l.after.ffmpeg == s.ffmpeg && s.files <= l.after.files && s.log <= l.after.log
    ensures s.ytDlp.Some? ==> l == Lookup(Ok(s.ytDlp.value), s)
    ensures l.after.ytDlp == if l.result.Ok? then Some(l.result.value) else None
    // An empty slot answers what the acquisition answers, with its files and effects.
    ensures s.ytDlp.None? ==> var a := AcquireYtDlp(env, s.files);
      l.result == a.result && l.after.files == a.files && l.after.log == s.log + a.effects
  {
    if s.ytDlp.Some? then Lookup(Ok(s.ytDlp.value), s)
    else
      var a := AcquireYtDlp(env, s.files);
      Lookup(a.result, Slots(if a.result.Ok? then Some(a.result.value) else None, s.ffmpeg, a.files, s.log + a.effects))
  }

  /** `ffmpeg_path` on values: a stored outcome, absence included, is the answer; otherwise
      `ensure_ffmpeg` runs and only an outcome it returns is stored, never an error or a panic. */
  function FfmpegLookup(env: Env, s: Slots): (l: Lookup<Task<Result<Option<Path>>>>)
    ensures l.after.ytDlp == s.ytDlp && s.files <= l.after.files && s.log <= l.after.log
    ensures s.ffmpeg.Some? ==> l == Lookup(Done(Ok(s.ffmpeg.value)), s)
    ensures l.after.ffmpeg == if l.result.Done? && l.result.value.Ok? then Some(l.result.value.value) else None
    // An empty slot answers what the acquisition answers, with its files and effects.
    ensures s.ffmpeg.None? ==> var a := AcquireFfmpeg(env, s.files);
      l.result == a.result && l.after.files == a.files && l.after.log == s.log + a.effects
  {
    if s.ffmpeg.Some? then Lookup(Done(Ok(s.ffmpeg.value)), s)
    else
      var a := AcquireFfmpeg(env, s.files);
      var stored := if a.result.Done? && a.result.value.Ok? then Some(a.result.value.value) else None;
      Lookup(a.result, Slots(s.ytDlp, stored, a.files, s.log + a.effects))
  }

  class ToolResolver {
    /** `YT_DLP`: empty until an acquisition succeeds, then fixed. */
    var ytDlp: Option<Path>
    /** `FFMPEG`: empty, or the stored outcome, a path or its absence. */
    var ffmpeg: Option<Option<Path>>
    /** The paths that exist on disk. */
    var files: set<Path>
    /** Every external effect so far, in order. */
    var log: seq<Effect>

    /** A fresh process: both slots empty, `existing` on disk. */
    constructor (existing: set<Path>)
      ensures ytDlp == None && ffmpeg == None && files == existing && log == []
    {
      ytDlp, ffmpeg, files, log := None, None, existing, [];
    }

    /** The resolver's state as a value. */
    function State(): Slots
      reads this
    {
      Slots(ytDlp, ffmpeg, files, log)
    }

    /** `ensure_yt_dlp`. */
    method EnsureYtDlp(env: Env) returns (r: Result<Path>)
      modifies this`files, this`log
      ensures var a := AcquireYtDlp(env, old(files));
        r == a.result && files == a.files && log == old(log) + a.effects
    {
      if env.exe.ExeUnknown? {
        return Err(env.exe.error);
      }
      if env.exe.NoParent? {
        return Err("no exe dir");
      }
      var target := Join(env.exe.path, "yt-dlp");
      if target in files {
        return Ok(target);
      }
      log := log + [Spawn("curl", CurlArgs(target))];
      if env.curl.CurlNotSpawned? {
        return Err(env.curl.error);
      }
      if env.curl.leftFile {
        files := files + {target};
      }
      if !env.curl.success {
        return Err("yt-dlp download failed");
      }
      log := log + [Chmod(target)];
      if env.ytChmod.SpawnFailed? {
        return Err(env.ytChmod.error);
      }
      return Ok(target);
    }

    /** `ensure_ffmpeg`: the archive's entries are read in index order until one is named `…ffmpeg`. */
    method EnsureFfmpeg(env: Env) returns (r: Task<Result<Option<Path>>>)
      modifies this`files, this`log
      ensures var a := AcquireFfmpeg(env, old(files));
        r == a.result && files == a.files && log == old(log) + a.effects
    {
      if env.exe.ExeUnknown? {
        return Done(Err(env.exe.error));
      }
      if env.exe.NoParent? {
        return Panicked;
      }
      var target := Join(env.exe.path, "ffmpeg");
      if target in files {
        return Done(Ok(Some(target)));
      }
      log := log + [HttpGet(FFMPEG_ZIP_URL)];
      match env.zip {
        case RequestFailed(e) => return Done(Err("download error: " + e));
        case BodyFailed(e) => return Done(Err("read body error: " + e));
        case NotAZip(e) => return Done(Err("zip error: " + e));
        case Archive(_) =>
      }
      r := ScanArchive(env, env.zip.entries, target);
      assert log == old(log) + ([HttpGet(FFMPEG_ZIP_URL)] + FromArchive(env, env.zip.entries, target, old(files)).effects);
    }

    /** The `for i in 0..archive.len()` loop of `ensure_ffmpeg`, with its early returns. */
    method ScanArchive(env: Env, entries: seq<Entry>, target: Path) returns (r: Task<Result<Option<Path>>>)
      modifies this`files, this`log
      ensures var a := FromArchive(env, entries, target, old(files));
        r == a.result && files == a.files && log == old(log) + a.effects
    {
      var i := 0;
      while i < |entries|
        invariant 0 <= i <= |entries|
        invariant ScanFrom(entries, i) == ScanFrom(entries, 0)
        invariant files == old(files)
        invariant log == old(log) + Opened(i)
      {
        log := log + [OpenEntry(i)];
        if entries[i].Unreadable? {
          return Done(Err(entries[i].error));
        }
        if IsFfmpegName(entries[i].name) {
          r := InstallEntry(env, i, target);
          return;
        }
        i := i + 1;
      }
      return Done(Ok(None));
    }

    /** Writing entry `index` to `target`: `File::create`, `io::copy`, then `chmod +x`. */
    method InstallEntry(env: Env, index: nat, target: Path) returns (r: Task<Result<Option<Path>>>)
      modifies this`files, this`log
      ensures var a := Install(env, index, target, old(files));
        r == a.result && files == a.files && log == old(log) + a.effects
    {
      log := log + [CreateFile(target)];
      if env.createError.Some? {
        return Done(Err(env.createError.value));
      }
      files := files + {target};
      log := log + [CopyEntry(index, target)];
      if env.copyError.Some? {
        return Done(Err(env.copyError.value));
      }
      log := log + [Chmod(target)];
      if env.ffChmod.SpawnFailed? {
        return Done(Err(env.ffChmod.error));
      }
      return Done(Ok(Some(target)));
    }

    /** `yt_dlp_path`: `YT_DLP.get_or_try_init(ensure_yt_dlp)`. */
    method YtDlpPath(env: Env) returns (r: Result<Path>)
      modifies this`ytDlp, this`files, this`log
      ensures old(ytDlp).Some? ==>
        r == Ok(old(ytDlp).value) && ytDlp == old(ytDlp) && files == old(files) && log == old(log)
      ensures old(ytDlp).None? ==>
        var a := AcquireYtDlp(env, old(files));
        r == a.result && files == a.files && log == old(log) + a.effects
        && ytDlp == (if r.Ok? then Some(r.value) else None)
      ensures Lookup(r, State()) == YtDlpLookup(env, old(State()))
    {
      if ytDlp.Some? {
        return Ok(ytDlp.value);
      }
      r := EnsureYtDlp(env);
      if r.Ok? {
        ytDlp := Some(r.value);
      }
    }

    /** `ffmpeg_path`: `FFMPEG.get_or_try_init(ensure_ffmpeg)`; a stored absence is as final as a path. */
    method FfmpegPath(env: Env) returns (r: Task<Result<Option<Path>>>)
      modifies this`ffmpeg, this`files, this`log
      ensures old(ffmpeg).Some? ==>
        r == Done(Ok(old(ffmpeg).value)) && ffmpeg == old(ffmpeg) && files == old(files) && log == old(log)
      ensures old(ffmpeg).None? ==>
        var a := AcquireFfmpeg(env, old(files));
        r == a.result && files == a.files && log == old(log) + a.effects
        && ffmpeg == (if r.Done? && r.value.Ok? then Some(r.value.value) else None)
      ensures Lookup(r, State()) == FfmpegLookup(env, old(State()))
    {
      if ffmpeg.Some? {
        return Done(Ok(ffmpeg.value));
      }
      r := EnsureFfmpeg(env);
      if r.Done? && r.value.Ok? {
        ffmpeg := Some(r.value.value);
      }
    }
  }
}

=== FILE: binaries_facts.dfy ===
/** Properties of the tool resolver: the acquisitions' short-circuits and error split, the archive scan,
    and the memoisation of the two slots across calls. */
module BinariesFacts {
  import opened Wrappers
  import opened Os
  import opened Binaries

  /** A file already beside the executable is returned as it is, with no effect at all: no download,
      no content or version check. */
  lemma ExistingToolIsTrusted(env: Env, files: set<Path>)
    requires env.exe.Dir?
    ensures Join(env.exe.path, "yt-dlp") in files ==>
      AcquireYtDlp(env, files) == Acquisition(Ok(Join(env.exe.path, "yt-dlp")), files, [])
    ensures Join(env.exe.path, "ffmpeg") in files ==>
      AcquireFfmpeg(env, files) == Acquisition(Done(Ok(Some(Join(env.exe.path, "ffmpeg")))), files, [])
  {
  }

  /** Without a parent directory of the executable, yt-dlp reports the error `no exe dir` while ffmpeg's
      `unwrap` panics; neither touches anything. */
  lemma NoExeDir(env: Env, files: set<Path>)
    requires env.exe.NoParent?
    ensures AcquireYtDlp(env, files) == Acquisition(Err("no exe dir"), files, [])
    ensures AcquireFfmpeg(env, files) == Acquisition(Panicked, files, [])
  {
  }

  /** A curl that exits unsuccessfully fails the acquisition with `yt-dlp download failed`; chmod is
      never run. */
  lemma FailedDownloadSkipsChmod(env: Env, files: set<Path>)
    requires env.exe.Dir? && Join(env.exe.path, "yt-dlp") !in files
    requires env.curl.CurlExited? && !env.curl.success
    ensures var a := AcquireYtDlp(env, files);
      a.result == Err("yt-dlp download failed") && a.effects == [Spawn("curl", CurlArgs(Join(env.exe.path, "yt-dlp")))]
  {
  }

  /** chmod's exit status is ignored: once it has been spawned the tool is installed, whatever it exited
      with. Only a failure to spawn it is an error. */
  lemma ChmodStatusIgnored(env: Env, files: set<Path>)
    requires env.exe.Dir?
    requires Join(env.exe.path, "yt-dlp") !in files && env.curl.CurlExited? && env.curl.success
    ensures AcquireYtDlp(env, files).result == if env.ytChmod.SpawnFailed? then Err(env.ytChmod.error)
                                               else Ok(Join(env.exe.path, "yt-dlp"))
    // Either way the download is followed by `chmod +x` on the downloaded file.
    ensures var t := Join(env.exe.path, "yt-dlp");
      AcquireYtDlp(env, files).effects == [Spawn("curl", CurlArgs(t)), Chmod(t)]
  {
    var t := Join(env.exe.path, "yt-dlp");
    assert [Spawn("curl", CurlArgs(t))] + [Chmod(t)] == [Spawn("curl", CurlArgs(t)), Chmod(t)];
  }

  /** The same holds for the ffmpeg install: once the entry is written, only a failure to spawn chmod is
      an error, whatever chmod exited with. */
  lemma InstallChmodStatusIgnored(env: Env, index: nat, target: Path, files: set<Path>)
    requires env.createError.None? && env.copyError.None?
    ensures Install(env, index, target, files).result ==
      if env.ffChmod.SpawnFailed? then Done(Err(env.ffChmod.error)) else Done(Ok(Some(target)))
    ensures Install(env, index, target, files).files == files + {target}
  {
  }

  /** Once the scan stops, at a selected entry or at an unreadable one, entries after it make no
      difference: they are never read. */
  lemma {:induction false} ScanIgnoresLaterEntries(entries: seq<Entry>, later: seq<Entry>, from: nat)
    requires from <= |entries|
    requires !ScanFrom(entries, from).Exhausted?
    ensures ScanFrom(entries + later, from) == ScanFrom(entries, from)
    decreases |entries| - from
  {
    assert (entries + later)[from] == entries[from];
    if entries[from].Named? && !IsFfmpegName(entries[from].name) {
      ScanIgnoresLaterEntries(entries, later, from + 1);
    }
  }

  /** The first entry named `…ffmpeg` after entries that are all readable and differently named is the
      one installed, whatever follows it. */
  lemma {:induction false} ScanSelectsFirst(skipped: seq<Entry>, name: string, later: seq<Entry>)
    requires forall j :: 0 <= j < |skipped| ==> skipped[j].Named? && !IsFfmpegName(skipped[j].name)
    requires IsFfmpegName(name)
    ensures ScanFrom(skipped + [Named(name)] + later, 0) == Selected(|skipped|, name)
  {
    var entries := skipped + [Named(name)];
    ScanSkips(entries, 0, |skipped|);
    ScanIgnoresLaterEntries(entries, later, 0);
  }

  lemma {:induction false} ScanSkips(entries: seq<Entry>, from: nat, to: nat)
    requires from <= to < |entries|
    requires forall j :: from <= j < to ==> entries[j].Named? && !IsFfmpegName(entries[j].name)
    ensures ScanFrom(entries, from) == ScanFrom(entries, to)
    decreases |entries| - from
  {
    if from < to {
      ScanSkips(entries, from + 1, to);
    }
  }

  /** `["docs/readme", "bin/sub/ffmpeg", "ffmpeg.1"]`: the scan selects the second entry; the third, whose
      name only contains `ffmpeg`, is never reached. */
  lemma ArchiveScanExample()
    ensures ScanFrom([Named("docs/readme"), Named("bin/sub/ffmpeg"), Named("ffmpeg.1")], 0)
         == Selected(1, "bin/sub/ffmpeg")
  {
    assert !IsFfmpegName("docs/readme");
    assert IsFfmpegName("bin/sub/ffmpeg");
  }

  /** Once that archive is open: entries 0 and 1 are opened, then the second is installed. */
  lemma ArchiveInstallExample(env: Env, target: Path, files: set<Path>)
    requires env.zip == Archive([Named("docs/readme"), Named("bin/sub/ffmpeg"), Named("ffmpeg.1")])
    requires env.createError.None? && env.copyError.None? && env.ffChmod.Exited?
    ensures FromArchive(env, env.zip.entries, target, files) == Acquisition(Done(Ok(Some(target))), files + {target},
      [OpenEntry(0), OpenEntry(1), CreateFile(target), CopyEntry(1, target), Chmod(target)])
  {
    ArchiveScanExample();
    assert Opened(2) == [OpenEntry(0), OpenEntry(1)];
  }

  /** Once the archive is open, `ensure_ffmpeg` answers what the scan and install answer, after the fetch. */
  lemma FetchedArchive(env: Env, files: set<Path>)
    requires env.exe.Dir? && Join(env.exe.path, "ffmpeg") !in files && env.zip.Archive?
    ensures var a := FromArchive(env, env.zip.entries, Join(env.exe.path, "ffmpeg"), files);
      AcquireFfmpeg(env, files) == Acquisition(a.result, a.files, [HttpGet(FFMPEG_ZIP_URL)] + a.effects)
  {
    assert env.exe == Dir(env.exe.path) && env.zip == Archive(env.zip.entries);
  }

  lemma FetchThenInstall(target: Path)
    ensures [HttpGet(FFMPEG_ZIP_URL)] + [OpenEntry(0), OpenEntry(1), CreateFile(target), CopyEntry(1, target), Chmod(target)]
         == [HttpGet(FFMPEG_ZIP_URL), OpenEntry(0), OpenEntry(1), CreateFile(target), CopyEntry(1, target), Chmod(target)]
  {
  }

  /** The same archive fetched by `ensure_ffmpeg`: the second entry is installed, and the effects are the
      fetch, opening the first two entries, then create, copy and chmod. */
  lemma ArchiveExample(env: Env, files: set<Path>)
    requires env.exe.Dir? && Join(env.exe.path, "ffmpeg") !in files
    requires env.zip == Archive([Named("docs/readme"), Named("bin/sub/ffmpeg"), Named("ffmpeg.1")])
    requires env.createError.None? && env.copyError.None? && env.ffChmod.Exited?
    ensures var target := Join(env.exe.path, "ffmpeg");
      AcquireFfmpeg(env, files) == Acquisition(Done(Ok(Some(target))), files + {target},
        [HttpGet(FFMPEG_ZIP_URL), OpenEntry(0), OpenEntry(1), CreateFile(target), CopyEntry(1, target), Chmod(target)])
  {
    var target := Join(env.exe.path, "ffmpeg");
    ArchiveInstallExample(env, target, files);
    var a := FromArchive(env, env.zip.entries, target, files);
    FetchedArchive(env, files);
    FetchThenInstall(target);
  }

  /** An archive without an `…ffmpeg` entry yields a successful absence, not an error; failing to fetch,
      read or parse the archive is an error. */
  lemma AbsenceIsNotAnError(env: Env, files: set<Path>)
    requires env.exe.Dir? && Join(env.exe.path, "ffmpeg") !in files
    ensures env.zip.Archive? && ScanFrom(env.zip.entries, 0).Exhausted? ==>
      AcquireFfmpeg(env, files).result == Done(Ok(None))
    ensures env.zip.RequestFailed? ==> AcquireFfmpeg(env, files).result == Done(Err("download error: " + env.zip.error))
    ensures env.zip.BodyFailed? ==> AcquireFfmpeg(env, files).result == Done(Err("read body error: " + env.zip.error))
    ensures env.zip.NotAZip? ==> AcquireFfmpeg(env, files).result == Done(Err("zip error: " + env.zip.error))
    ensures env.zip.Archive? && ScanFrom(env.zip.entries, 0).Broken? ==>
      AcquireFfmpeg(env, files).result == Done(Err(ScanFrom(env.zip.entries, 0).error))
  {
  }

  /** A failed download is not remembered: the next call downloads again, and once a call succeeds every
      later call returns the same path with no further effect, whatever the world would now answer. */
  method RetryAfterFailure(dir: Path, existing: set<Path>, failing: Env, working: Env, any: Env)
    returns (first: Result<Path>, second: Result<Path>, third: Result<Path>, effects: seq<Effect>)
    requires failing.exe == Dir(dir) && working.exe == Dir(dir) && Join(dir, "yt-dlp") !in existing
    requires failing.curl == CurlExited(false, false)
    requires working.curl == CurlExited(true, true) && working.ytChmod.Exited?
    ensures first == Err("yt-dlp download failed")
    ensures second == Ok(Join(dir, "yt-dlp")) && third == second
    ensures var curl := Spawn("curl", CurlArgs(Join(dir, "yt-dlp")));
      effects == [curl, curl, Chmod(Join(dir, "yt-dlp"))]
  {
    var tools := new ToolResolver(existing);
    first := tools.YtDlpPath(failing);
    second := tools.YtDlpPath(working);
    third := tools.YtDlpPath(any);
    effects := tools.log;
  }

  /** curl can fail after writing part of the file. Nothing removes it, so the next call finds a file at
      the destination and returns it as the tool, with no download. */
  method PartialDownloadIsTrusted(dir: Path, existing: set<Path>, broken: Env, any: Env)
    returns (first: Result<Path>, second: Result<Path>, effects: seq<Effect>)
    requires broken.exe == Dir(dir) && any.exe == Dir(dir) && Join(dir, "yt-dlp") !in existing
    requires broken.curl == CurlExited(false, true)
    ensures first == Err("yt-dlp download failed")
    ensures second == Ok(Join(dir, "yt-dlp"))
    ensures effects == [Spawn("curl", CurlArgs(Join(dir, "yt-dlp")))]
  {
    var tools := new ToolResolver(existing);
    first := tools.YtDlpPath(broken);
    second := tools.YtDlpPath(any);
    effects := tools.log;
  }

  /** An archive without ffmpeg is fetched once: the absence is stored, and a later call returns it
      without fetching again. */
  method AbsenceIsFinal(dir: Path, existing: set<Path>, empty: Env, any: Env)
    returns (first: Task<Result<Option<Path>>>, second: Task<Result<Option<Path>>>, effects: seq<Effect>)
    requires empty.exe == Dir(dir) && Join(dir, "ffmpeg") !in existing
    requires empty.zip.Archive? && ScanFrom(empty.zip.entries, 0).Exhausted?
    ensures first == Done(Ok(None)) && second == first
    ensures effects == [HttpGet(FFMPEG_ZIP_URL)] + Opened(|empty.zip.entries|)
  {
    var tools := new ToolResolver(existing);
    first := tools.FfmpegPath(empty);
    second := tools.FfmpegPath(any);
    effects := tools.log;
  }

  /** A fetch error is not stored: the next call fetches the archive again. */
  method FetchErrorIsRetried(dir: Path, existing: set<Path>, failing: Env, next: Env)
    returns (first: Task<Result<Option<Path>>>, effects: seq<Effect>)
    requires failing.exe == Dir(dir) && next.exe == Dir(dir) && Join(dir, "ffmpeg") !in existing
    requires failing.zip.RequestFailed?
    ensures first == Done(Err("download error: " + failing.zip.error))
    ensures |effects| >= 2 && effects[..2] == [HttpGet(FFMPEG_ZIP_URL), HttpGet(FFMPEG_ZIP_URL)]
  {
    var tools := new ToolResolver(existing);
    first := tools.FfmpegPath(failing);
    var _ := tools.FfmpegPath(next);
    effects := tools.log;
  }
}

=== FILE: commands.dfy ===
/** The two Tauri commands (src-tauri/src/main.rs): each is `download_audio` with its own URL test. */
module Commands {
  import opened Wrappers
  import opened Strings
  import opened Os
  import opened Binaries
  import opened Downloader

  /** The YouTube command's test: the URL mentions `youtube.com` or `youtu.be` somewhere, that is, one of
      the two host names occupies some window of it. */
  function IsYouTubeUrl(u: string): (r: bool)
    ensures r <==> (exists i :: OccursAt(u, "youtube.com", i)) || (exists i :: OccursAt(u, "youtu.be", i))
  {
    ContainsIffOccurs(u, "youtube.com");
    ContainsIffOccurs(u, "youtu.be");
    Contains(u, "youtube.com") || Contains(u, "youtu.be")
  }

  /** The SoundCloud command's test: `soundcloud.com` occupies some window of the URL. */
  function IsSoundCloudUrl(u: string): (r: bool)
    ensures r <==> exists i :: OccursAt(u, "soundcloud.com", i)
  {
    ContainsIffOccurs(u, "soundcloud.com");
    Contains(u, "soundcloud.com")
  }

  /** Neither test looks at the scheme, the position or the rest of the URL: any text may surround the
      host name, so `xyoutube.comx` passes. */
  lemma AnywhereCounts(before: string, after: string)
    ensures IsYouTubeUrl(before + "youtube.com" + after)
    ensures IsYouTubeUrl(before + "youtu.be" + after)
    ensures IsSoundCloudUrl(before + "soundcloud.com" + after)
  {
    ContainsInside(before, "youtube.com", after);
    ContainsInside(before, "youtu.be", after);
    ContainsInside(before, "soundcloud.com", after);
  }

  /** Text in which the first character of `p` never appears does not contain `p`. */
  lemma {:induction false} MissingFirstChar(s: string, p: string)
    requires |p| > 0 && forall i :: 0 <= i < |s| ==> s[i] != p[0]
    ensures !Contains(s, p)
    decreases |s|
  {
    if |s| > 0 {
      if |p| <= |s| {
        assert s[..|p|][0] == s[0];
      }
      MissingFirstChar(s[1..], p);
    }
  }

  /** The tests compare characters exactly: a URL written without lower-case letters, such as
      `HTTPS://YOUTUBE.COM/WATCH?V=…`, passes neither. */
  lemma UpperCaseRefused(u: string)
    requires forall i :: 0 <= i < |u| ==> !('a' <= u[i] <= 'z')
    ensures !IsYouTubeUrl(u) && !IsSoundCloudUrl(u)
  {
    MissingFirstChar(u, "youtube.com");
    MissingFirstChar(u, "youtu.be");
    MissingFirstChar(u, "soundcloud.com");
  }

  /** `download_youtube(url, app)`. */
  method DownloadYouTube(url: string, tools: ToolResolver, env: Env, probe: Output, choice: FolderChoice,
                         extraction: Output)
    returns (reply: Task<string>, effects: seq<Effect>)
    modifies tools
    ensures !IsYouTubeUrl(url) ==> reply == Done("invalid URL") && effects == [] && unchanged(tools)
    ensures IsYouTubeUrl(url) && old(tools.ytDlp).Some? && old(tools.ffmpeg).Some? ==>
      Extracted(url, old(tools.ytDlp).value, old(tools.ffmpeg).value, probe, choice, extraction, reply, effects)
    ensures Downloaded(url, IsYouTubeUrl(url), env, old(tools.State()), probe, choice, extraction, reply, effects,
                       tools.State())
  {
    reply, effects := DownloadAudio(url, IsYouTubeUrl, tools, env, probe, choice, extraction);
  }

  /** `download_soundcloud(url, app)`. */
  method DownloadSoundCloud(url: string, tools: ToolResolver, env: Env, probe: Output, choice: FolderChoice,
                            extraction: Output)
    returns (reply: Task<string>, effects: seq<Effect>)
    modifies tools
    ensures !IsSoundCloudUrl(url) ==> reply == Done("invalid URL") && effects == [] && unchanged(tools)
    ensures IsSoundCloudUrl(url) && old(tools.ytDlp).Some? && old(tools.ffmpeg).Some? ==>
      Extracted(url, old(tools.ytDlp).value, old(tools.ffmpeg).value, probe, choice, extraction, reply, effects)
    ensures Downloaded(url, IsSoundCloudUrl(url), env, old(tools.State()), probe, choice, extraction, reply, effects,
                       tools.State())
  {
    reply, effects := DownloadAudio(url, IsSoundCloudUrl, tools, env, probe, choice, extraction);
  }
}

=== FILE: downloader.dfy ===
/** `download_audio` (src-tauri/src/downloader.rs): the steps shared by the YouTube and SoundCloud
    commands, each of which may end the command early with a reply string. */
module Downloader {
  import opened Wrappers
  import opened Strings
  import opened Os
  import opened Util
  import opened Binaries

  /** `Command::output().await`: the process could not be spawned, or it ran to an exit status with
      its standard output and error as text. */
  datatype Output = SpawnError(error: string) | Finished(success: bool, stdout: string, stderr: string)

  /** What the folder dialog gives back: nothing (cancelled), a folder path, or a `FilePath` that is not a
      path, on which `into_path().unwrap()` panics. */
  datatype FolderChoice = Cancelled | Folder(path: Path) | NotAPath

  /** The file the audio is written to: the sanitized title plus `.mp3`, joined to the chosen folder. */
  function OutFile(folder: Path, title: string): Path {
    Join(folder, SanitizeFilename(title) + ".mp3")
  }

  /** The output file always lands directly in the chosen folder: its name holds no `/`, so neither an
      absolute title nor `..` components can move it elsewhere. */
  lemma OutFileInFolder(folder: Path, title: string)
    ensures var name := SanitizeFilename(title) + ".mp3";
      (forall i :: 0 <= i < |name| ==> name[i] != '/') && EndsWith(name, ".mp3")
      && (OutFile(folder, title) == folder + name || OutFile(folder, title) == folder + "/" + name)
  {
    var clean := SanitizeFilename(title);
    var name := clean + ".mp3";
    assert name[|name| - 4..] == ".mp3";
    forall i | 0 <= i < |name| ensures name[i] != '/' {
      if i < |clean| {
        assert name[i] == clean[i] && IsFilenameChar(clean[i]);
      } else {
        assert name[i] == ".mp3"[i - |clean|];
      }
    }
    assert name[0] != '/';
    assert OutFile(folder, title) == Join(folder, name);
  }

  /** The arguments of the extraction run: `-x --audio-format mp3 -o <out> <url>`, then
      `--ffmpeg-location <ff>` exactly when an ffmpeg path is known. */
  function ExtractArgs(out: Path, url: string, ffmpeg: Option<Path>): seq<string> {
    ["-x", "--audio-format", "mp3", "-o"] + [out] + [url]
      + (if ffmpeg.Some? then ["--ffmpeg-location", ffmpeg.value] else [])
  }

  /** What steps 2 to 4 of `download_audio` reply and do, given the yt-dlp path `exe` and the ffmpeg path
      `ff`: the title probe, the folder dialog and the extraction run, each of which may end the command. */
  ghost predicate Extracted(url: string, exe: Path, ff: Option<Path>, probe: Output, choice: FolderChoice,
                            extraction: Output, reply: Task<string>, effects: seq<Effect>)
  {
    var probing := [Spawn(exe, ["--print", "title", url])];
    match probe
    case SpawnError(e) => reply == Done("yt-dlp exec error: " + e) && effects == probing
    case Finished(false, _, stderr) => reply == Done("yt-dlp title error: " + stderr) && effects == probing
    case Finished(true, stdout, _) =>
      match choice
      case Cancelled => reply == Done("canceled") && effects == probing + [PickFolder]
      case NotAPath => reply == Panicked && effects == probing + [PickFolder]
      case Folder(folder) =>
        var out := OutFile(folder, Trim(stdout, IsRustWhitespace));
        effects == probing + [PickFolder, Spawn(exe, ExtractArgs(out, url, ff))]
        && reply == Done(match extraction
                         case SpawnError(e) => "yt-dlp exec error: " + e
                         case Finished(true, _, _) => "Ok: path=" + out
                         case Finished(false, _, stderr) => "yt-dlp failed: " + stderr)
  }

  /** Steps 2 to 4 of `download_audio`: probe the title, ask for a folder, run the extraction. */
  method Extract(url: string, exe: Path, ff: Option<Path>, probe: Output, choice: FolderChoice, extraction: Output)
    returns (reply: Task<string>, effects: seq<Effect>)
    ensures Extracted(url, exe, ff, probe, choice, extraction, reply, effects)
  {
    // 2. The title.
    effects := [Spawn(exe, ["--print", "title", url])];
    if probe.SpawnError? {
      return Done("yt-dlp exec error: " + probe.error), effects;
    }
    if !probe.success {
      return Done("yt-dlp title error: " + probe.stderr), effects;
    }
    var title := Trim(probe.stdout, IsRustWhitespace);

    // 3. The output folder.
    effects := effects + [PickFolder];
    if choice.Cancelled? {
      return Done("canceled"), effects;
    }
    if choice.NotAPath? {
      return Panicked, effects;
    }

    // 4. The extraction, its arguments added to the command one call at a time.
    var out := Join(choice.path, SanitizeFilename(title) + ".mp3");
    var args := ["-x", "--audio-format", "mp3", "-o"];
    args := args + [out];
    args := args + [url];
    if ff.Some? {
      args := args + ["--ffmpeg-location", ff.value];
    }
    assert args == ExtractArgs(out, url, ff);
    effects := effects + [Spawn(exe, args)];
    match extraction {
      case SpawnError(e) => reply := Done("yt-dlp exec error: " + e);
      case Finished(success, _, stderr) =>
        reply := if success then Done("Ok: path=" + out) else Done("yt-dlp failed: " + stderr);
    }
  }

  /** `download_audio(url, app, is_valid)` on values, with `valid` the answer of `is_valid(url)`: the reply,
      the command's own effects, and the resolver's state `after` starting from `before`. An invalid URL is
      refused before either slot is consulted; a yt-dlp error ends the command before the ffmpeg slot is;
      an ffmpeg error counts as no ffmpeg, while its panic ends the command. */
  ghost predicate Downloaded(url: string, valid: bool, env: Env, before: Slots, probe: Output, choice: FolderChoice,
                             extraction: Output, reply: Task<string>, effects: seq<Effect>, after: Slots)
  {
    if !valid then reply == Done("invalid URL") && effects == [] && after == before
    else
      var yt := YtDlpLookup(env, before);
      if yt.result.Err? then reply == Done("yt-dlp error: " + yt.result.error) && effects == [] && after == yt.after
      else
        var ff := FfmpegLookup(env, yt.after);
        after == ff.after
        && if ff.result.Panicked? then reply == Panicked && effects == []
           else Extracted(url, yt.result.value, if ff.result.value.Ok? then ff.result.value.value else None,
                          probe, choice, extraction, reply, effects)
  }

  /** `download_audio(url, app, is_valid)`. The folder dialog's starting directory is not modelled. */
  method DownloadAudio(url: string, isValid: string -> bool, tools: ToolResolver, env: Env,
                       probe: Output, choice: FolderChoice, extraction: Output)
    returns (reply: Task<string>, effects: seq<Effect>)
    modifies tools
    ensures !isValid(url) ==> unchanged(tools)
    ensures Downloaded(url, isValid(url), env, old(tools.State()), probe, choice, extraction, reply, effects,
                       tools.State())
  {
    effects := [];
    if !isValid(url) {
      return Done("invalid URL"), effects;
    }

    // 1. The two tool paths, each resolved at most once per process.
    var yt := tools.YtDlpPath(env);
    if yt.Err? {
      return Done("yt-dlp error: " + yt.error), effects;
    }
    var ff := tools.FfmpegPath(env);
    if ff.Panicked? {
      return Panicked, effects;
    }
    reply, effects := Extract(url, yt.value, if ff.value.Ok? then ff.value.value else None, probe, choice, extraction);
  }
}

/** Facts about the replies of `download_audio`. */
module DownloaderFacts {
  import opened Wrappers
  import opened Strings
  import opened Os
  import opened Util
  import opened Binaries
  import opened Downloader

  /** A reply that begins with a `y` (every `yt-dlp …` failure) or a `c` (`canceled`) is not a success. */
  lemma NotSuccess(head: string, rest: string)
    requires head != [] && head[0] != 'O'
    ensures !StartsWith(head + rest, "Ok: path=")
  {
    assert (head + rest)[0] == head[0];
  }

  /** A reply starting with `Ok: path=` comes only from a run in which the title probe succeeded, a
      folder was chosen and the extraction succeeded; it names the file the extraction was told to write,
      which lies directly in that folder. Every other way through steps 2 to 4 replies otherwise. */
  lemma SuccessReply(url: string, exe: Path, ff: Option<Path>, probe: Output, choice: FolderChoice,
                     extraction: Output, reply: Task<string>, effects: seq<Effect>)
    requires Extracted(url, exe, ff, probe, choice, extraction, reply, effects)
    ensures (reply.Done? && StartsWith(reply.value, "Ok: path=")) <==>
      (probe.Finished? && probe.success && choice.Folder? && extraction.Finished? && extraction.success)
    ensures reply.Done? && StartsWith(reply.value, "Ok: path=") && probe.Finished? && choice.Folder? ==>
      var out := OutFile(choice.path, Trim(probe.stdout, IsRustWhitespace));
      reply.value == "Ok: path=" + out && effects[|effects| - 1] == Spawn(exe, ExtractArgs(out, url, ff))
  {
    if probe.SpawnError? {
      NotSuccess("yt-dlp exec error: ", probe.error);
    } else if !probe.success {
      NotSuccess("yt-dlp title error: ", probe.stderr);
    } else if choice.Cancelled? {
      NotSuccess("canceled", "");
    } else if choice.Folder? {
      var out := OutFile(choice.path, Trim(probe.stdout, IsRustWhitespace));
      if extraction.SpawnError? {
        NotSuccess("yt-dlp exec error: ", extraction.error);
      } else if !extraction.success {
        NotSuccess("yt-dlp failed: ", extraction.stderr);
      } else {
        assert ("Ok: path=" + out)[..9] == "Ok: path=";
      }
    }
  }

  /** A yt-dlp error ends the command before the ffmpeg slot is consulted: that slot is as it was and
      the archive is not fetched. */
  lemma YtDlpErrorStops(url: string, env: Env, before: Slots, probe: Output, choice: FolderChoice,
                        extraction: Output, reply: Task<string>, effects: seq<Effect>, after: Slots)
    requires Downloaded(url, true, env, before, probe, choice, extraction, reply, effects, after)
    requires YtDlpLookup(env, before).result.Err?
    ensures reply == Done("yt-dlp error: " + YtDlpLookup(env, before).result.error) && effects == []
    ensures after.ffmpeg == before.ffmpeg && HttpGet(FFMPEG_ZIP_URL) !in after.log[|before.log|..]
  {
    var a := AcquireYtDlp(env, before.files);
    assert after.log == before.log + a.effects;
    assert after.log[|before.log|..] == a.effects;
  }

  /** Across a command a stored slot keeps its value, no file disappears and effects are only appended;
      the yt-dlp slot is left empty only by a command that failed with a yt-dlp error. */
  lemma SlotsPersist(url: string, valid: bool, env: Env, before: Slots, probe: Output, choice: FolderChoice,
                     extraction: Output, reply: Task<string>, effects: seq<Effect>, after: Slots)
    requires Downloaded(url, valid, env, before, probe, choice, extraction, reply, effects, after)
    ensures before.ytDlp.Some? ==> after.ytDlp == before.ytDlp
    ensures before.ffmpeg.Some? ==> after.ffmpeg == before.ffmpeg
    ensures before.files <= after.files && before.log <= after.log
    ensures valid && after.ytDlp.None? ==>
      YtDlpLookup(env, before).result.Err? && reply == Done("yt-dlp error: " + YtDlpLookup(env, before).result.error)
  {
    if valid {
      var yt := YtDlpLookup(env, before);
      if yt.result.Ok? {
        var ff := FfmpegLookup(env, yt.after);
        assert before.log <= yt.after.log <= ff.after.log;
        assert before.files <= yt.after.files <= ff.after.files;
      }
    }
  }

  /** With both slots filled a command leaves the resolver as it was and extracts with the stored paths. */
  lemma StoredToolsReused(url: string, env: Env, before: Slots, probe: Output, choice: FolderChoice,
                          extraction: Output, reply: Task<string>, effects: seq<Effect>, after: Slots)
    requires Downloaded(url, true, env, before, probe, choice, extraction, reply, effects, after)
    requires before.ytDlp.Some? && before.ffmpeg.Some?
    ensures after == before
    ensures Extracted(url, before.ytDlp.value, before.ffmpeg.value, probe, choice, extraction, reply, effects)
  {
  }

  /** With the title known and a folder chosen, the command's effects are the probe, the dialog and the
      extraction run writing to the out-file. */
  lemma ExtractedRun(url: string, exe: Path, ff: Option<Path>, probe: Output, choice: FolderChoice,
                     extraction: Output, reply: Task<string>, effects: seq<Effect>)
    requires Extracted(url, exe, ff, probe, choice, extraction, reply, effects)
    requires probe.Finished? && probe.success && choice.Folder?
    ensures |effects| == 3 && effects[0] == Spawn(exe, ["--print", "title", url]) && effects[1] == PickFolder
    ensures effects[2] == Spawn(exe, ExtractArgs(OutFile(choice.path, Trim(probe.stdout, IsRustWhitespace)), url, ff))
  {
  }

  /** The extraction arguments: the fixed options, the out-file and the URL, then `--ffmpeg-location` and
      the path exactly when one is known. */
  lemma ExtractArgsShape(out: Path, url: string, ff: Option<Path>)
    ensures var args := ExtractArgs(out, url, ff);
      && |args| == (if ff.Some? then 8 else 6)
      && args[..4] == ["-x", "--audio-format", "mp3", "-o"] && args[4] == out && args[5] == url
      && (ff.Some? ==> args[6..] == ["--ffmpeg-location", ff.value])
  {
  }

  /** Once the title is known and a folder chosen, the extraction run is the last effect, and it ends with
      `--ffmpeg-location` and `ff` exactly when an ffmpeg path is known. */
  lemma ExtractionArgs(url: string, exe: Path, ff: Option<Path>, probe: Output, choice: FolderChoice,
                       extraction: Output, reply: Task<string>, effects: seq<Effect>)
    requires Extracted(url, exe, ff, probe, choice, extraction, reply, effects)
    requires probe.Finished? && probe.success && choice.Folder?
    ensures effects != [] && effects[|effects| - 1].Spawn? && effects[|effects| - 1].program == exe
    ensures var args := effects[|effects| - 1].args;
      if ff.Some? then |args| == 8 && args[6..] == ["--ffmpeg-location", ff.value] else |args| == 6
  {
    ExtractedRun(url, exe, ff, probe, choice, extraction, reply, effects);
    ExtractArgsShape(OutFile(choice.path, Trim(probe.stdout, IsRustWhitespace)), url, ff);
  }

  /** The extraction run gets `--ffmpeg-location` followed by the path the ffmpeg slot answered, and no
      such option when it answered an absence or an error. */
  lemma FfmpegLocationPassed(url: string, env: Env, before: Slots, probe: Output, choice: FolderChoice,
                             extraction: Output, reply: Task<string>, effects: seq<Effect>, after: Slots)
    requires Downloaded(url, true, env, before, probe, choice, extraction, reply, effects, after)
    requires YtDlpLookup(env, before).result.Ok? && probe.Finished? && probe.success && choice.Folder?
    ensures var ff := FfmpegLookup(env, YtDlpLookup(env, before).after).result;
      ff.Done? ==>
        && effects != [] && effects[|effects| - 1].Spawn?
        && var args := effects[|effects| - 1].args;
           if ff.value.Ok? && ff.value.value.Some? then |args| == 8 && args[6..] == ["--ffmpeg-location", ff.value.value.value]
           else |args| == 6
  {
    var yt := YtDlpLookup(env, before);
    var ff := FfmpegLookup(env, yt.after).result;
    if ff.Done? {
      ExtractionArgs(url, yt.result.value, if ff.value.Ok? then ff.value.value else None,
                     probe, choice, extraction, reply, effects);
    }
  }
}

=== FILE: os.dfy ===
/** The operating system as the backend sees it: paths, process exit statuses, and the record of
    external effects (processes spawned, network requests, files written, dialogs shown). */
module Os {
  import opened Strings

  /** Paths are UTF-8 text here, so `to_str().unwrap()` and `display()` both give the path itself. */
  type Path = string

  /** `PathBuf::join` on Unix: an absolute name replaces the directory; otherwise a `/` is put between
      the two unless the directory is empty or already ends with one. */
  function Join(dir: Path, name: string): (p: Path)
    ensures name != [] && name[0] == '/' ==> p == name
    ensures (name == [] || name[0] != '/') ==>
      StartsWith(p, dir) && EndsWith(p, name) && |dir| + |name| <= |p| <= |dir| + |name| + 1
    // The one character that may be added is a `/` between the two, added exactly when needed.
    ensures (name == [] || name[0] != '/') ==>
      (p == dir + name || p == dir + "/" + name) && (p == dir + "/" + name <==> (dir != [] && dir[|dir| - 1] != '/'))
  {
    if name != [] && name[0] == '/' then name
    else if dir == [] || dir[|dir| - 1] == '/' then dir + name
    else dir + "/" + name
  }

  /** `Command::status().await`: the process could not be spawned (an I/O error), or it exited. */
  datatype Status = SpawnFailed(error: string) | Exited(success: bool)

  /** One external effect, in the order the backend causes it. */
  datatype Effect =
    | Spawn(program: string, args: seq<string>)
    | HttpGet(url: string)
    | OpenEntry(index: nat)
    | CreateFile(path: Path)
    | CopyEntry(index: nat, path: Path)
    | PickFolder
}

=== FILE: strings.dfy ===
/** String predicates the source takes from its standard libraries:
    `starts_with`/`startsWith`, `ends_with`, `contains`, and `trim` in its Rust and JavaScript flavours. */
module Strings {

  predicate StartsWith(s: string, prefix: string) {
    |prefix| <= |s| && s[..|prefix|] == prefix
  }

  predicate EndsWith(s: string, suffix: string) {
    |suffix| <= |s| && s[|s| - |suffix|..] == suffix
  }

  /** `s.contains(p)`: a left-to-right scan that tries every start position in turn. */
  predicate Contains(s: string, p: string)
    decreases |s|
  {
    StartsWith(s, p) || (|s| > 0 && Contains(s[1..], p))
  }

  /** The reference meaning of "`p` is a substring of `s`": `p` occupies the window of `s` starting at `i`. */
  ghost predicate OccursAt(s: string, p: string, i: int) {
    0 <= i && i + |p| <= |s| && s[i..i + |p|] == p
  }

  /** The scan finds `p` exactly when some window of `s` holds it. */
  lemma {:induction false} ContainsIffOccurs(s: string, p: string)
    ensures Contains(s, p) <==> exists i :: OccursAt(s, p, i)
    decreases |s|
  {
    if Contains(s, p) {
      if StartsWith(s, p) {
        assert OccursAt(s, p, 0);
      } else {
        ContainsIffOccurs(s[1..], p);
        var i :| OccursAt(s[1..], p, i);
        assert s[1..][i..i + |p|] == s[i + 1..i + 1 + |p|];
        assert OccursAt(s, p, i + 1);
      }
    }
    if exists i :: OccursAt(s, p, i) {
      var i :| OccursAt(s, p, i);
      if i == 0 {
        assert StartsWith(s, p);
      } else {
        assert s[1..][i - 1..i - 1 + |p|] == s[i..i + |p|];
        assert OccursAt(s[1..], p, i - 1);
        ContainsIffOccurs(s[1..], p);
      }
    }
  }

  /** Whatever surrounds an occurrence of `p` does not hide it. */
  lemma ContainsInside(a: string, p: string, b: string)
    ensures Contains(a + p + b, p)
  {
    var s := a + p + b;
    assert s[|a|..|a| + |p|] == p;
    assert OccursAt(s, p, |a|);
    ContainsIffOccurs(s, p);
  }

  /** Rust's `char::is_whitespace`: the Unicode White_Space property. */
  predicate IsRustWhitespace(c: char) {
    c == '\t' || c == '\n' || c == '\U{000B}' || c == '\U{000C}' || c == '\r' || c == ' '
    || c == '\U{0085}' || c == '\U{00A0}' || c == '\U{1680}'
    || ('\U{2000}' <= c <= '\U{200A}')
    || c == '\U{2028}' || c == '\U{2029}' || c == '\U{202F}' || c == '\U{205F}' || c == '\U{3000}'
  }

  /** The characters JavaScript's `String.prototype.trim` removes: WhiteSpace and LineTerminator
      (no U+0085, but U+FEFF). */
  predicate IsJsWhitespace(c: char) {
    c == '\t' || c == '\n' || c == '\U{000B}' || c == '\U{000C}' || c == '\r' || c == ' '
    || c == '\U{00A0}' || c == '\U{1680}'
    || ('\U{2000}' <= c <= '\U{200A}')
    || c == '\U{2028}' || c == '\U{2029}' || c == '\U{202F}' || c == '\U{205F}' || c == '\U{3000}'
    || c == '\U{FEFF}'
  }

  ghost predicate AllSatisfy(s: string, ws: char -> bool) {
    forall i :: 0 <= i < |s| ==> ws(s[i])
  }

  /** Drops the leading run of characters `ws` accepts: what is left is a suffix of `s`, everything
      dropped is whitespace, and what is left does not start with whitespace. */
  function TrimStart(s: string, ws: char -> bool): (r: string)
    ensures |r| <= |s| && r == s[|s| - |r|..]
    ensures AllSatisfy(s[..|s| - |r|], ws)
    ensures r != [] ==> !ws(r[0])
  {
    if s != [] && ws(s[0]) then
      var r := TrimStart(s[1..], ws);
      assert s[..|s| - |r|] == [s[0]] + s[1..][..|s| - 1 - |r|];
      r
    else s
  }

  /** Drops the trailing run of characters `ws` accepts, symmetrically to `TrimStart`. */
  function TrimEnd(s: string, ws: char -> bool): (r: string)
    ensures |r| <= |s| && r == s[..|r|]
    ensures AllSatisfy(s[|r|..], ws)
    ensures r != [] ==> !ws(r[|r| - 1])
  {
    if s != [] && ws(s[|s| - 1]) then
      var r := TrimEnd(s[..|s| - 1], ws);
      assert s[|r|..] == s[..|s| - 1][|r|..] + [s[|s| - 1]];
      r
    else s
  }

  /** `s.trim()`: both ends trimmed. */
  function Trim(s: string, ws: char -> bool): string {
    TrimEnd(TrimStart(s, ws), ws)
  }

  lemma {:induction false} TrimStartSkipsPadding(w: string, s: string, ws: char -> bool)
    requires AllSatisfy(w, ws)
    ensures TrimStart(w + s, ws) == TrimStart(s, ws)
    decreases |w|
  {
    if w == [] {
      assert w + s == s;
    } else {
      assert (w + s)[0] == w[0] && (w + s)[1..] == w[1..] + s;
      TrimStartSkipsPadding(w[1..], s, ws);
    }
  }

  lemma {:induction false} TrimEndSkipsPadding(s: string, w: string, ws: char -> bool)
    requires AllSatisfy(w, ws)
    ensures TrimEnd(s + w, ws) == TrimEnd(s, ws)
    decreases |w|
  {
    if w == [] {
      assert s + w == s;
    } else {
      assert (s + w)[|s + w| - 1] == w[|w| - 1] && (s + w)[..|s + w| - 1] == s + w[..|w| - 1];
      TrimEndSkipsPadding(s, w[..|w| - 1], ws);
    }
  }

  /** Trimming the front of `s + t` either reaches into `t` (all of `s` was whitespace) or keeps `t` whole. */
  lemma {:induction false} TrimStartAppend(s: string, t: string, ws: char -> bool)
    ensures TrimStart(s + t, ws) == if TrimStart(s, ws) == [] then TrimStart(t, ws) else TrimStart(s, ws) + t
    decreases |s|
  {
    if s == [] {
      assert s + t == t;
    } else {
      assert (s + t)[0] == s[0];
      if ws(s[0]) {
        assert (s + t)[1..] == s[1..] + t;
        TrimStartAppend(s[1..], t, ws);
      }
    }
  }

  /** Padding `s` with whitespace on either side never changes what `Trim` gives. */
  lemma TrimIgnoresPadding(w1: string, s: string, w2: string, ws: char -> bool)
    requires AllSatisfy(w1, ws) && AllSatisfy(w2, ws)
    ensures Trim(w1 + s + w2, ws) == Trim(s, ws)
  {
    assert w1 + s + w2 == w1 + (s + w2);
    TrimStartSkipsPadding(w1, s + w2, ws);
    TrimStartAppend(s, w2, ws);
    if TrimStart(s, ws) == [] {
      TrimStartSkipsPadding(w2, [], ws);
      assert w2 + [] == w2;
    } else {
      TrimEndSkipsPadding(TrimStart(s, ws), w2, ws);
    }
  }
}

=== FILE: url_matcher.dfy ===
/** `match_url` (src/utils/url.ts): classifies a pasted URL as a YouTube or SoundCloud link, or neither,
    by a table of seven anchored, case-insensitive regular expressions. Each expression is encoded by hand
    below as a recogniser over strings. */
module UrlMatcher {
  import opened Wrappers
  import opened Strings

  datatype Service = YouTube | SoundCloud

  /** The seven entries of `PATTERNS`, in table order. */
  datatype Pattern = Watch | Shorts | Embed | ShortLink | Playlist | Track | Set

  /** Case folding for these patterns under the `i` flag. Without `u` the flag upper-cases every
      character but never maps a non-ASCII character onto an ASCII one; every literal and class of the
      patterns is ASCII, so no non-ASCII character matches either way, and folding ASCII letters (to
      lower case here) decides the same matches. */
  function Fold(c: char): char {
    if 'A' <= c <= 'Z' then (c as int + 32) as char else c
  }

  function FoldAll(s: string): (r: string)
    ensures |r| == |s| && forall i :: 0 <= i < |s| ==> r[i] == Fold(s[i])
  {
    seq(|s|, i requires 0 <= i < |s| => Fold(s[i]))
  }

  /** `s` starts with the lower-case literal `lit`, ignoring ASCII case. */
  predicate StartsWithFolded(s: string, lit: string) {
    |lit| <= |s| && forall i :: 0 <= i < |lit| ==> Fold(s[i]) == lit[i]
  }

  /** `[\w-]`. */
  predicate IsIdChar(c: char) {
    ('a' <= c <= 'z') || ('A' <= c <= 'Z') || ('0' <= c <= '9') || c == '_' || c == '-'
  }

  /** The characters `.` refuses. */
  predicate IsLineTerminator(c: char) {
    c == '\n' || c == '\r' || c == '\U{2028}' || c == '\U{2029}'
  }

  /** `.*$`. */
  predicate AnyTail(t: string) {
    forall i :: 0 <= i < |t| ==> !IsLineTerminator(t[i])
  }

  /** `(?:[&#?].*)?$`. */
  predicate QueryTail(t: string) {
    t == [] || ((t[0] == '&' || t[0] == '#' || t[0] == '?') && AnyTail(t[1..]))
  }

  /** `(?:\?.*)?$`. */
  predicate SearchTail(t: string) {
    t == [] || (t[0] == '?' && AnyTail(t[1..]))
  }

  /** `[\w-]{11}(?:[&#?].*)?$`. */
  predicate VideoId(t: string) {
    |t| >= 11 && (forall i :: 0 <= i < 11 ==> IsIdChar(t[i])) && QueryTail(t[11..])
  }

  /** The length of the longest run of `[\w-]` that starts `t`. */
  function IdRun(t: string): (k: nat)
    ensures k <= |t| && (forall i :: 0 <= i < k ==> IsIdChar(t[i])) && (k < |t| ==> !IsIdChar(t[k]))
  {
    if t != [] && IsIdChar(t[0]) then 1 + IdRun(t[1..]) else 0
  }

  /** What may follow a `[\w-]+` run in the table: `(?:[&#?].*)?$` (`Query`), `(?:\?.*)?$` (`Search`),
      `\/[\w-]+(?:\?.*)?$` (`ThenName`) or `\/sets\/[\w-]+(?:\?.*)?$` (`ThenSetsName`). */
  datatype Rest = Query | Search | ThenName | ThenSetsName

  /** `u` is accepted by the continuation `rest`. */
  predicate Accepts(rest: Rest, u: string)
    decreases |u|, 1
  {
    match rest
    case Query => QueryTail(u)
    case Search => SearchTail(u)
    case ThenName => u != [] && u[0] == '/' && RunThen(u[1..], Search)
    case ThenSetsName => StartsWithFolded(u, "/sets/") && RunThen(u[6..], Search)
  }

  /** `[\w-]+` followed by what `rest` accepts, matched greedily: the run is taken whole. */
  predicate RunThen(t: string, rest: Rest)
    decreases |t|, 0
  {
    var k := IdRun(t);
    k >= 1 && Accepts(rest, t[k..])
  }

  /** What the regular expression means by `[\w-]+` followed by `rest`: SOME non-empty run will do. */
  ghost predicate RegexRunThen(t: string, rest: Rest) {
    exists k :: 1 <= k <= |t| && (forall i :: 0 <= i < k ==> IsIdChar(t[i])) && Accepts(rest, t[k..])
  }

  /** No continuation starts with a `[\w-]` character. */
  lemma RestStartsApart(rest: Rest, u: string)
    requires Accepts(rest, u) && u != []
    ensures !IsIdChar(u[0])
  {
    if rest == ThenSetsName {
      assert Fold(u[0]) == '/';
    }
  }

  /** Since no continuation starts with a `[\w-]` character, the greedy recogniser and the backtracking
      regular expression agree. */
  lemma RunThenIsRegex(t: string, rest: Rest)
    ensures RunThen(t, rest) <==> RegexRunThen(t, rest)
  {
    var n := IdRun(t);
    if RegexRunThen(t, rest) {
      var k :| 1 <= k <= |t| && (forall i :: 0 <= i < k ==> IsIdChar(t[i])) && Accepts(rest, t[k..]);
      if k < |t| {
        RestStartsApart(rest, t[k..]);
        assert t[k..][0] == t[k];
      }
      assert k == n;
    }
    if RunThen(t, rest) {
      assert 1 <= n <= |t| && (forall i :: 0 <= i < n ==> IsIdChar(t[i])) && Accepts(rest, t[n..]);
    }
  }

  /** The fixed host-and-path literal of each pattern, in lower case. */
  function Literal(p: Pattern): string {
    match p
    case Watch => "youtube.com/watch?v="
    case Shorts => "youtube.com/shorts/"
    case Embed => "youtube.com/embed/"
    case ShortLink => "youtu.be/"
    case Playlist => "youtube.com/playlist?list="
    case Track => "soundcloud.com/"
    case Set => "soundcloud.com/"
  }

  /** What each pattern demands after its literal. */
  predicate IdPart(p: Pattern, t: string) {
    match p
    case Watch => VideoId(t)
    case Shorts => VideoId(t)
    case Embed => VideoId(t)
    case ShortLink => VideoId(t)
    case Playlist => RunThen(t, Query)
    case Track => RunThen(t, ThenName)
    case Set => RunThen(t, ThenSetsName)
  }

  /** The pattern from its literal on. */
  predicate Body(p: Pattern, u: string) {
    StartsWithFolded(u, Literal(p)) && IdPart(p, u[|Literal(p)|..])
  }

  /** `(?:www\.)?` before the literal; `youtu.be` has no such group. */
  predicate AfterScheme(p: Pattern, u: string) {
    Body(p, u) || (p != ShortLink && StartsWithFolded(u, "www.") && Body(p, u[4..]))
  }

  /** `re.test(s)`: `^(?:https?:\/\/)?` and the rest of the pattern. */
  predicate Matches(p: Pattern, s: string) {
    AfterScheme(p, s)
    || (StartsWithFolded(s, "http://") && AfterScheme(p, s[7..]))
    || (StartsWithFolded(s, "https://") && AfterScheme(p, s[8..]))
  }

  /** `PATTERNS[service]`. */
  function Patterns(service: Service): seq<Pattern> {
    match service
    case YouTube => [Watch, Shorts, Embed, ShortLink, Playlist]
    case SoundCloud => [Track, Set]
  }

  /** The order `Object.entries(PATTERNS)` visits the services in: insertion order. */
  const SERVICES: seq<Service> := [YouTube, SoundCloud]

  /** `list.some((re) => re.test(s))`. */
  predicate AnyMatches(list: seq<Pattern>, s: string) {
    if list == [] then false
    else Matches(list[0], s) || AnyMatches(list[1..], s)
  }

  /** `some` holds exactly when some pattern of the list matches. */
  lemma {:induction false} AnyMatchesMeaning(list: seq<Pattern>, s: string)
    ensures AnyMatches(list, s) <==> exists i :: 0 <= i < |list| && Matches(list[i], s)
  {
    if list != [] {
      AnyMatchesMeaning(list[1..], s);
      if exists i :: 0 <= i < |list[1..]| && Matches(list[1..][i], s) {
        var i :| 0 <= i < |list[1..]| && Matches(list[1..][i], s);
        assert Matches(list[i + 1], s);
      }
      if exists i :: 0 <= i < |list| && Matches(list[i], s) {
        var i :| 0 <= i < |list| && Matches(list[i], s);
        if i > 0 {
          assert Matches(list[1..][i - 1], s);
        }
      }
    }
  }

  /** The first of `services` any of whose patterns match `clean`. */
  ghost function FirstService(services: seq<Service>, clean: string): Option<Service> {
    if services == [] then None
    else if AnyMatches(Patterns(services[0]), clean) then Some(services[0])
    else FirstService(services[1..], clean)
  }

  /** The trimmed URL belongs to the first service, in table order, any of whose patterns match it. */
  ghost function Classify(url: string): Option<Service> {
    FirstService(SERVICES, Trim(url, IsJsWhitespace))
  }

  /** `match_url`: the loop over the services, returning at the first one whose list has a match. */
  method MatchUrl(url: string) returns (r: Option<Service>)
    ensures r == Classify(url)
  {
    var clean := Trim(url, IsJsWhitespace);
    for k := 0 to |SERVICES|
      invariant FirstService(SERVICES[k..], clean) == FirstService(SERVICES, clean)
    {
      if AnyMatches(Patterns(SERVICES[k]), clean) {
        return Some(SERVICES[k]);
      }
      assert SERVICES[k..][1..] == SERVICES[k + 1..];
    }
    return None;
  }
}

/** Properties of `match_url`. */
module UrlMatcherFacts {
  import opened Wrappers
  import opened Strings
  import opened UrlMatcher

  /** The input is trimmed first: whitespace around a URL never changes its class. */
  lemma ClassifyIgnoresPadding(w1: string, url: string, w2: string)
    requires AllSatisfy(w1, IsJsWhitespace) && AllSatisfy(w2, IsJsWhitespace)
    ensures Classify(w1 + url + w2) == Classify(url)
  {
    TrimIgnoresPadding(w1, url, w2, IsJsWhitespace);
  }

  lemma FoldSlice(s: string, k: nat)
    requires k <= |s|
    ensures FoldAll(s)[k..] == FoldAll(s[k..])
  {
  }

  lemma {:induction false} IdRunFold(t: string)
    ensures IdRun(FoldAll(t)) == IdRun(t)
    decreases |t|
  {
    if t != [] {
      FoldSlice(t, 1);
      IdRunFold(t[1..]);
    }
  }

  lemma TailsFold()
    ensures forall u :: QueryTail(FoldAll(u)) == QueryTail(u)
    ensures forall u :: SearchTail(FoldAll(u)) == SearchTail(u)
  {
    forall u ensures QueryTail(FoldAll(u)) == QueryTail(u) && SearchTail(FoldAll(u)) == SearchTail(u) {
      if u != [] {
        FoldSlice(u, 1);
      }
    }
  }

  lemma {:induction false} AcceptsFold(rest: Rest, u: string)
    ensures Accepts(rest, FoldAll(u)) == Accepts(rest, u)
    decreases |u|, 1
  {
    match rest
    case Query => TailsFold();
    case Search => TailsFold();
    case ThenName =>
      if u != [] {
        FoldSlice(u, 1);
        RunThenFold(u[1..], Search);
      }
    case ThenSetsName =>
      StartsWithFold(u, "/sets/");
      if |u| >= 6 {
        FoldSlice(u, 6);
        RunThenFold(u[6..], Search);
      }
  }

  lemma {:induction false} RunThenFold(t: string, rest: Rest)
    ensures RunThen(FoldAll(t), rest) == RunThen(t, rest)
    decreases |t|, 0
  {
    IdRunFold(t);
    var k := IdRun(t);
    if k >= 1 {
      FoldSlice(t, k);
      AcceptsFold(rest, t[k..]);
    }
  }

  lemma StartsWithFold(u: string, lit: string)
    ensures StartsWithFolded(FoldAll(u), lit) == StartsWithFolded(u, lit)
  {
  }

  lemma IdPartFold(p: Pattern, t: string)
    ensures IdPart(p, FoldAll(t)) == IdPart(p, t)
  {
    match p
    case Watch => assert VideoId(FoldAll(t)) == VideoId(t) by { VideoIdFold(t); }
    case Shorts => assert VideoId(FoldAll(t)) == VideoId(t) by { VideoIdFold(t); }
    case Embed => assert VideoId(FoldAll(t)) == VideoId(t) by { VideoIdFold(t); }
    case ShortLink => assert VideoId(FoldAll(t)) == VideoId(t) by { VideoIdFold(t); }
    case Playlist => RunThenFold(t, Query);
    case Track => RunThenFold(t, ThenName);
    case Set => RunThenFold(t, ThenSetsName);
  }

  lemma VideoIdFold(t: string)
    ensures VideoId(FoldAll(t)) == VideoId(t)
  {
    if |t| >= 11 {
      FoldSlice(t, 11);
      TailsFold();
      assert QueryTail(FoldAll(t[11..])) == QueryTail(t[11..]);
    }
  }

  lemma BodyFold(p: Pattern, u: string)
    ensures Body(p, FoldAll(u)) == Body(p, u)
  {
    var n := |Literal(p)|;
    StartsWithFold(u, Literal(p));
    if n <= |u| {
      FoldSlice(u, n);
      IdPartFold(p, u[n..]);
    }
  }

  lemma AfterSchemeFold(p: Pattern, u: string)
    ensures AfterScheme(p, FoldAll(u)) == AfterScheme(p, u)
  {
    BodyFold(p, u);
    StartsWithFold(u, "www.");
    if 4 <= |u| {
      FoldSlice(u, 4);
      BodyFold(p, u[4..]);
    }
  }

  lemma MatchesFold(p: Pattern, s: string)
    ensures Matches(p, FoldAll(s)) == Matches(p, s)
  {
    AfterSchemeFold(p, s);
    StartsWithFold(s, "http://");
    StartsWithFold(s, "https://");
    if 7 <= |s| {
      FoldSlice(s, 7);
      AfterSchemeFold(p, s[7..]);
    }
    if 8 <= |s| {
      FoldSlice(s, 8);
      AfterSchemeFold(p, s[8..]);
    }
  }

  lemma {:induction false} AnyMatchesFold(list: seq<Pattern>, s: string)
    ensures AnyMatches(list, FoldAll(s)) == AnyMatches(list, s)
    decreases |list|
  {
    if list != [] {
      MatchesFold(list[0], s);
      AnyMatchesFold(list[1..], s);
    }
  }

  /** Folding never turns a character into whitespace or whitespace into something else. */
  lemma FoldKeepsSpace(c: char)
    ensures IsJsWhitespace(Fold(c)) == IsJsWhitespace(c)
  {
  }

  lemma {:induction false} TrimStartFold(s: string)
    ensures TrimStart(FoldAll(s), IsJsWhitespace) == FoldAll(TrimStart(s, IsJsWhitespace))
    decreases |s|
  {
    var f := FoldAll(s);
    if s == [] {
      assert f == [];
    } else {
      FoldKeepsSpace(s[0]);
      if IsJsWhitespace(s[0]) {
        assert IsJsWhitespace(f[0]);
        FoldSlice(s, 1);
        TrimStartFold(s[1..]);
      } else {
        assert !IsJsWhitespace(f[0]);
      }
    }
  }

  lemma {:induction false} TrimEndFold(s: string)
    ensures TrimEnd(FoldAll(s), IsJsWhitespace) == FoldAll(TrimEnd(s, IsJsWhitespace))
    decreases |s|
  {
    var f := FoldAll(s);
    if s == [] {
      assert f == [];
    } else {
      var last := |s| - 1;
      FoldKeepsSpace(s[last]);
      if IsJsWhitespace(s[last]) {
        assert IsJsWhitespace(f[|f| - 1]);
        assert TrimEnd(f, IsJsWhitespace) == TrimEnd(f[..last], IsJsWhitespace);
        assert TrimEnd(s, IsJsWhitespace) == TrimEnd(s[..last], IsJsWhitespace);
        assert f[..last] == FoldAll(s[..last]);
        TrimEndFold(s[..last]);
      } else {
        assert !IsJsWhitespace(f[|f| - 1]);
        assert TrimEnd(f, IsJsWhitespace) == f;
      }
    }
  }

  /** Every pattern carries the `i` flag: two URLs that differ only in the case of ASCII letters are
      classified alike. */
  lemma ClassifyIgnoresCase(url: string, other: string)
    requires FoldAll(url) == FoldAll(other)
    ensures Classify(url) == Classify(other)
  {
    forall u | u == url || u == other ensures Classify(FoldAll(u)) == Classify(u) {
      TrimStartFold(u);
      TrimEndFold(TrimStart(u, IsJsWhitespace));
      FirstServiceFold(SERVICES, Trim(u, IsJsWhitespace));
    }
  }

  lemma {:induction false} FirstServiceFold(services: seq<Service>, clean: string)
    ensures FirstService(services, FoldAll(clean)) == FirstService(services, clean)
    decreases |services|
  {
    if services != [] {
      AnyMatchesFold(Patterns(services[0]), clean);
      FirstServiceFold(services[1..], clean);
    }
  }

  /** A folded prefix fixes the folded characters at its positions. */
  lemma PrefixChar(s: string, lit: string, i: nat)
    requires StartsWithFolded(s, lit) && i < |lit|
    ensures i < |s| && Fold(s[i]) == lit[i]
  {
  }

  /** Every literal starts with `y` (the YouTube ones) or `s` (the SoundCloud ones). */
  lemma LiteralHead(p: Pattern)
    ensures Literal(p)[0] == (if p == Track || p == Set then 's' else 'y')
  {
  }

  /** Where a pattern's literal has to start in `s`: after `https://` or `http://` when one is there, and
      then after `www.` when that is there. Since no literal starts with `h` or `w`, the first character
      (and the fifth, `s` or `:`) tell the prefixes apart. */
  ghost function LiteralStart(s: string): nat {
    var n := if |s| > 4 && Fold(s[0]) == 'h' then (if Fold(s[4]) == 's' then 8 else 7) else 0;
    n + (if n < |s| && Fold(s[n]) == 'w' then 4 else 0)
  }

  /** After the scheme, the pattern's literal comes at once or after `www.`: the part of `AfterScheme`
      that fixes where the literal starts. */
  ghost predicate LiteralAt(p: Pattern, u: string) {
    StartsWithFolded(u, Literal(p)) || (StartsWithFolded(u, "www.") && StartsWithFolded(u[4..], Literal(p)))
  }

  lemma AfterSchemeLiteral(p: Pattern, u: string)
    requires AfterScheme(p, u)
    ensures LiteralAt(p, u)
  {
    if !Body(p, u) {
      assert Body(p, u[4..]);
    }
  }

  /** After the scheme, a pattern's literal starts at once, or after `www.` when that is present. */
  lemma WwwHead(p: Pattern, u: string)
    requires LiteralAt(p, u)
    ensures u != [] && Fold(u[0]) != 'h'
    ensures var w := if Fold(u[0]) == 'w' then 4 else 0;
      w < |u| && Fold(u[w]) == Literal(p)[0]
  {
    LiteralHead(p);
    if StartsWithFolded(u, Literal(p)) {
      PrefixChar(u, Literal(p), 0);
    } else {
      PrefixChar(u, "www.", 0);
      PrefixChar(u[4..], Literal(p), 0);
      assert u[4..][0] == u[4];
    }
  }

  /** Where a match puts the pattern's literal: after no scheme, after `http://` or after `https://`. */
  lemma MatchLiteral(p: Pattern, s: string)
    requires Matches(p, s)
    ensures || LiteralAt(p, s)
            || (StartsWithFolded(s, "http://") && LiteralAt(p, s[7..]))
            || (StartsWithFolded(s, "https://") && LiteralAt(p, s[8..]))
  {
    if AfterScheme(p, s) {
      AfterSchemeLiteral(p, s);
    } else if StartsWithFolded(s, "http://") && AfterScheme(p, s[7..]) {
      AfterSchemeLiteral(p, s[7..]);
    } else {
      AfterSchemeLiteral(p, s[8..]);
    }
  }

  /** A URL some pattern matches has that pattern's literal at `LiteralStart`. */
  lemma MatchHead(p: Pattern, s: string)
    requires Matches(p, s)
    ensures LiteralStart(s) < |s| && Fold(s[LiteralStart(s)]) == Literal(p)[0]
  {
    MatchLiteral(p, s);
    PlacedHead(p, s);
  }

  lemma PlacedHead(p: Pattern, s: string)
    requires || LiteralAt(p, s)
             || (StartsWithFolded(s, "http://") && LiteralAt(p, s[7..]))
             || (StartsWithFolded(s, "https://") && LiteralAt(p, s[8..]))
    ensures LiteralStart(s) < |s| && Fold(s[LiteralStart(s)]) == Literal(p)[0]
  {
    if LiteralAt(p, s) {
      WwwHead(p, s);
    } else if StartsWithFolded(s, "http://") && LiteralAt(p, s[7..]) {
      PrefixChar(s, "http://", 0);
      PrefixChar(s, "http://", 4);
      SchemeHead(p, s, 7);
    } else {
      PrefixChar(s, "https://", 0);
      PrefixChar(s, "https://", 4);
      SchemeHead(p, s, 8);
    }
  }

  lemma SchemeHead(p: Pattern, s: string, n: nat)
    requires |s| > 4 && Fold(s[0]) == 'h' && n == (if Fold(s[4]) == 's' then 8 else 7)
    requires n <= |s| && LiteralAt(p, s[n..])
    ensures LiteralStart(s) < |s| && Fold(s[LiteralStart(s)]) == Literal(p)[0]
  {
    WwwHead(p, s[n..]);
    assert s[n..][0] == s[n];
    var w := if Fold(s[n]) == 'w' then 4 else 0;
    assert s[n..][w] == s[n + w];
  }

  /** When every literal of `list` starts with `first`, a match of any of them puts `first` at
      `LiteralStart`. */
  lemma {:induction false} ListHead(list: seq<Pattern>, first: char, s: string)
    requires forall i :: 0 <= i < |list| ==> Literal(list[i])[0] == first
    ensures AnyMatches(list, s) ==> LiteralStart(s) < |s| && Fold(s[LiteralStart(s)]) == first
    decreases |list|
  {
    if list != [] {
      if Matches(list[0], s) {
        MatchHead(list[0], s);
      }
      ListHead(list[1..], first, s);
    }
  }

  /** No URL matches both a YouTube and a SoundCloud pattern, so checking YouTube first never hides a
      SoundCloud link: the table order decides nothing. */
  lemma ServicesDisjoint(s: string)
    ensures !(AnyMatches(Patterns(YouTube), s) && AnyMatches(Patterns(SoundCloud), s))
  {
    forall p | p in Patterns(YouTube) + Patterns(SoundCloud) {
      LiteralHead(p);
    }
    ListHead(Patterns(YouTube), 'y', s);
    ListHead(Patterns(SoundCloud), 's', s);
  }

  /** What `match_url` answers: YouTube exactly when a YouTube pattern matches the trimmed URL, SoundCloud
      exactly when a SoundCloud pattern does, and nothing when neither does. */
  lemma ClassifyMeaning(url: string)
    ensures var clean := Trim(url, IsJsWhitespace);
      && (Classify(url) == Some(YouTube) <==> AnyMatches(Patterns(YouTube), clean))
      && (Classify(url) == Some(SoundCloud) <==> AnyMatches(Patterns(SoundCloud), clean))
      && (Classify(url) == None <==>
            !AnyMatches(Patterns(YouTube), clean) && !AnyMatches(Patterns(SoundCloud), clean))
  {
    var clean := Trim(url, IsJsWhitespace);
    ServicesDisjoint(clean);
    assert SERVICES[0] == YouTube && SERVICES[1..] == [SoundCloud] && [SoundCloud][1..] == [];
    assert FirstService([SoundCloud], clean) ==
      if AnyMatches(Patterns(SoundCloud), clean) then Some(SoundCloud) else None;
  }

  /** A non-empty run of `[\w-]` characters. */
  ghost predicate IsIdRun(s: string) {
    |s| >= 1 && forall i :: 0 <= i < |s| ==> IsIdChar(s[i])
  }

  /** Nothing, or one of `marks` followed by anything up to the end of the line: `(?:[&#?].*)?$` with
      `marks` the three query marks, `(?:\?.*)?$` with `marks` just `?`. */
  ghost predicate OptionalTail(tail: string, marks: set<char>) {
    tail == [] || (tail[0] in marks && forall i :: 1 <= i < |tail| ==> !IsLineTerminator(tail[i]))
  }

  lemma OptionalTailAccepted(tail: string)
    ensures OptionalTail(tail, {'&', '#', '?'}) ==> QueryTail(tail)
    ensures OptionalTail(tail, {'?'}) ==> SearchTail(tail)
  {
    if tail != [] {
      assert forall i :: 0 <= i < |tail[1..]| ==> tail[1..][i] == tail[i + 1];
    }
  }

  /** A lower-case literal is matched, ignoring case, by itself. */
  lemma FoldedPrefix(lit: string, rest: string)
    requires forall c | c in lit :: !('A' <= c <= 'Z')
    ensures StartsWithFolded(lit + rest, lit) && (lit + rest)[|lit|..] == rest
  {
    forall i | 0 <= i < |lit|
      ensures Fold((lit + rest)[i]) == lit[i]
    {
      assert lit[i] in lit;
    }
  }

  /** A run followed by what `rest` accepts is accepted by `RunThen`. */
  lemma RunAccepted(run: string, after: string, rest: Rest)
    requires IsIdRun(run) && Accepts(rest, after)
    ensures RunThen(run + after, rest)
  {
    var t := run + after;
    assert t[|run|..] == after;
    assert forall i :: 0 <= i < |run| ==> IsIdChar(t[i]) by {
      forall i | 0 <= i < |run| ensures IsIdChar(t[i]) { assert t[i] == run[i]; }
    }
    assert RegexRunThen(t, rest);
    RunThenIsRegex(t, rest);
  }

  /** The literal followed by an accepted id part is the body of the pattern. */
  lemma BodyAccepted(p: Pattern, idPart: string)
    requires IdPart(p, idPart)
    ensures Body(p, Literal(p) + idPart)
  {
    FoldedPrefix(Literal(p), idPart);
  }

  /** `www.`, where the pattern allows it, may precede the body. */
  lemma WwwAccepted(p: Pattern, www: string, u: string)
    requires www in {"", "www."} && (p == ShortLink ==> www == "") && Body(p, u)
    ensures AfterScheme(p, www + u)
  {
    if www == "" {
      assert www + u == u;
    } else {
      FoldedPrefix("www.", u);
    }
  }

  /** Any of the optional schemes may precede what follows it. */
  lemma SchemeAccepted(p: Pattern, scheme: string, v: string)
    requires scheme in {"", "http://", "https://"} && AfterScheme(p, v)
    ensures Matches(p, scheme + v)
  {
    if scheme == "" {
      assert scheme + v == v;
    } else {
      FoldedPrefix(scheme, v);
    }
  }

  /** Any of the optional schemes, and `www.` where the pattern allows it, may precede the body. */
  lemma PrefixesAccepted(p: Pattern, scheme: string, www: string, u: string)
    requires scheme in {"", "http://", "https://"} && www in {"", "www."} && (p == ShortLink ==> www == "")
    requires Body(p, u)
    ensures Matches(p, scheme + www + u)
  {
    WwwAccepted(p, www, u);
    SchemeAccepted(p, scheme, www + u);
    assert scheme + www + u == scheme + (www + u);
  }

  /** Eleven `[\w-]` characters and an optional `&#?` tail form a video id part. */
  lemma VideoIdAccepted(id: string, tail: string)
    requires |id| == 11 && IsIdRun(id) && OptionalTail(tail, {'&', '#', '?'})
    ensures VideoId(id + tail)
  {
    var idPart := id + tail;
    OptionalTailAccepted(tail);
    assert idPart[11..] == tail;
    assert forall i :: 0 <= i < 11 ==> idPart[i] == id[i];
  }

  lemma Regroup(a: string, b: string, c: string, d: string, e: string)
    ensures a + b + c + d + e == a + b + (c + (d + e))
  {
  }

  lemma Regroup7(a: string, b: string, c: string, d: string, e: string, f: string, g: string)
    ensures a + b + c + d + e + f + g == a + b + (c + (d + (e + (f + g))))
  {
  }

  /** The watch, shorts, embed and `youtu.be` patterns accept their literal followed by an eleven-character
      `[\w-]` id and an optional `&#?` tail, after any scheme and, except for `youtu.be`, an optional `www.`. */
  lemma VideoAccepted(p: Pattern, scheme: string, www: string, id: string, tail: string)
    requires p == Watch || p == Shorts || p == Embed || p == ShortLink
    requires scheme in {"", "http://", "https://"} && www in {"", "www."} && (p == ShortLink ==> www == "")
    requires |id| == 11 && IsIdRun(id) && OptionalTail(tail, {'&', '#', '?'})
    ensures Matches(p, scheme + www + Literal(p) + id + tail)
  {
    var idPart := id + tail;
    VideoIdAccepted(id, tail);
    BodyAccepted(p, idPart);
    PrefixesAccepted(p, scheme, www, Literal(p) + idPart);
    assert scheme + www + Literal(p) + id + tail == scheme + www + (Literal(p) + idPart);
  }

  /** The playlist pattern accepts `youtube.com/playlist?list=`, a `[\w-]` run and an optional `&#?` tail. */
  lemma PlaylistAccepted(scheme: string, www: string, list: string, tail: string)
    requires scheme in {"", "http://", "https://"} && www in {"", "www."}
    requires IsIdRun(list) && OptionalTail(tail, {'&', '#', '?'})
    ensures Matches(Playlist, scheme + www + "youtube.com/playlist?list=" + list + tail)
  {
    OptionalTailAccepted(tail);
    RunAccepted(list, tail, Query);
    BodyAccepted(Playlist, list + tail);
    PrefixesAccepted(Playlist, scheme, www, Literal(Playlist) + (list + tail));
    Regroup(scheme, www, Literal(Playlist), list, tail);
  }

  /** The track pattern accepts `soundcloud.com/`, an artist run, `/`, a track run and an optional `?` query. */
  lemma TrackAccepted(scheme: string, www: string, artist: string, track: string, query: string)
    requires scheme in {"", "http://", "https://"} && www in {"", "www."}
    requires IsIdRun(artist) && IsIdRun(track) && OptionalTail(query, {'?'})
    ensures Matches(Track, scheme + www + "soundcloud.com/" + artist + "/" + track + query)
  {
    OptionalTailAccepted(query);
    RunAccepted(track, query, Search);
    var named := "/" + (track + query);
    assert named[1..] == track + query;
    assert Accepts(ThenName, named);
    RunAccepted(artist, named, ThenName);
    BodyAccepted(Track, artist + named);
    PrefixesAccepted(Track, scheme, www, Literal(Track) + (artist + named));
    Regroup7(scheme, www, Literal(Track), artist, "/", track, query);
  }

  /** The set pattern accepts `soundcloud.com/`, an artist run, `/sets/`, a set run and an optional `?` query. */
  lemma SetAccepted(scheme: string, www: string, artist: string, name: string, query: string)
    requires scheme in {"", "http://", "https://"} && www in {"", "www."}
    requires IsIdRun(artist) && IsIdRun(name) && OptionalTail(query, {'?'})
    ensures Matches(Set, scheme + www + "soundcloud.com/" + artist + "/sets/" + name + query)
  {
    OptionalTailAccepted(query);
    RunAccepted(name, query, Search);
    FoldedPrefix("/sets/", name + query);
    var sets := "/sets/" + (name + query);
    assert Accepts(ThenSetsName, sets);
    RunAccepted(artist, sets, ThenSetsName);
    BodyAccepted(Set, artist + sets);
    PrefixesAccepted(Set, scheme, www, Literal(Set) + (artist + sets));
    Regroup7(scheme, www, Literal(Set), artist, "/sets/", name, query);
  }

  /** `youtu.be` takes no `www.` prefix, with or without a scheme. */
  lemma ShortLinkRefusesWww(scheme: string, rest: string)
    requires scheme == "" || scheme == "http://" || scheme == "https://"
    ensures !Matches(ShortLink, scheme + "www." + rest)
  {
    var s := scheme + "www." + rest;
    var n := |scheme|;
    assert s[n..][0] == s[n] == 'w';
    if n > 0 {
      assert s[0] == 'h' && s[4] == scheme[4];
    }
  }

  /** A video id is exactly eleven `[\w-]` characters: what follows is nothing or one of `&#?`, so a
      twelfth `[\w-]` character is refused. */
  lemma VideoIdLength(t: string)
    ensures VideoId(t) ==> |t| == 11 || t[11] == '&' || t[11] == '#' || t[11] == '?'
  {
    if VideoId(t) && |t| > 11 {
      assert t[11..][0] == t[11];
    }
  }

  /** Every `#` in `s` comes after some `?`: a fragment, if any, is part of a query. */
  ghost predicate FragmentAfterQuery(s: string) {
    forall i :: 0 <= i < |s| && s[i] == '#' ==> '?' in s[..i]
  }

  /** A prefix without `#` keeps the property of what follows it. */
  lemma FragmentFreePrefix(s: string, k: nat)
    requires k <= |s| && (forall i :: 0 <= i < k ==> s[i] != '#') && FragmentAfterQuery(s[k..])
    ensures FragmentAfterQuery(s)
  {
    forall i | 0 <= i < |s| && s[i] == '#'
      ensures '?' in s[..i]
    {
      assert s[k..][i - k] == '#';
      var j :| 0 <= j < i - k && s[k..][..i - k][j] == '?';
      assert s[..i][k + j] == '?';
    }
  }

  /** A folded literal without `#` puts no `#` in the text it prefixes. */
  lemma LiteralHasNoHash(u: string, lit: string)
    requires StartsWithFolded(u, lit) && '#' !in lit
    ensures forall i :: 0 <= i < |lit| ==> u[i] != '#'
  {
    forall i | 0 <= i < |lit|
      ensures u[i] != '#'
    {
      assert lit[i] in lit;
    }
  }

  /** `(?:\?.*)?$` starts any `#` after its `?`. */
  lemma SearchTailFragment(t: string)
    requires SearchTail(t)
    ensures FragmentAfterQuery(t)
  {
    forall i | 0 <= i < |t| && t[i] == '#'
      ensures '?' in t[..i]
    {
      assert t[..i][0] == '?';
    }
  }

  lemma {:induction false} AcceptsFragment(rest: Rest, u: string)
    requires rest != Query && Accepts(rest, u)
    ensures FragmentAfterQuery(u)
    decreases |u|, 1
  {
    match rest
    case Search => SearchTailFragment(u);
    case ThenName =>
      RunThenFragment(u[1..], Search);
      FragmentFreePrefix(u, 1);
    case ThenSetsName =>
      RunThenFragment(u[6..], Search);
      LiteralHasNoHash(u, "/sets/");
      FragmentFreePrefix(u, 6);
  }

  lemma {:induction false} RunThenFragment(t: string, rest: Rest)
    requires rest != Query && RunThen(t, rest)
    ensures FragmentAfterQuery(t)
    decreases |t|, 0
  {
    var k := IdRun(t);
    AcceptsFragment(rest, t[k..]);
    FragmentFreePrefix(t, k);
  }

  lemma SoundCloudBodyFragment(p: Pattern, u: string)
    requires (p == Track || p == Set) && Body(p, u)
    ensures FragmentAfterQuery(u)
  {
    var n := |Literal(p)|;
    RunThenFragment(u[n..], if p == Track then ThenName else ThenSetsName);
    LiteralHasNoHash(u, Literal(p));
    FragmentFreePrefix(u, n);
  }

  lemma SoundCloudAfterSchemeFragment(p: Pattern, u: string)
    requires (p == Track || p == Set) && AfterScheme(p, u)
    ensures FragmentAfterQuery(u)
  {
    if Body(p, u) {
      SoundCloudBodyFragment(p, u);
    } else {
      SoundCloudBodyFragment(p, u[4..]);
      LiteralHasNoHash(u, "www.");
      FragmentFreePrefix(u, 4);
    }
  }

  /** SoundCloud links take a `?` query but no bare `#` fragment: in a URL either SoundCloud pattern
      matches, every `#` comes after a `?`. (The YouTube patterns let `#` follow the id directly.) */
  lemma SoundCloudFragment(p: Pattern, s: string)
    requires p == Track || p == Set
    ensures Matches(p, s) ==> FragmentAfterQuery(s)
  {
    if AfterScheme(p, s) {
      SoundCloudAfterSchemeFragment(p, s);
    } else if StartsWithFolded(s, "http://") && AfterScheme(p, s[7..]) {
      SoundCloudAfterSchemeFragment(p, s[7..]);
      LiteralHasNoHash(s, "http://");
      FragmentFreePrefix(s, 7);
    } else if StartsWithFolded(s, "https://") && AfterScheme(p, s[8..]) {
      SoundCloudAfterSchemeFragment(p, s[8..]);
      LiteralHasNoHash(s, "https://");
      FragmentFreePrefix(s, 8);
    }
  }

  /** The fold identifies two characters exactly when they are equal or are the upper- and lower-case
      forms of one ASCII letter. Against the ASCII-only patterns this decides the same matches as the
      `i` flag without `u`, which also folds non-ASCII letters but never onto ASCII ones. */
  lemma FoldIdentifies(a: char, b: char)
    ensures Fold(a) == Fold(b) <==>
      || a == b
      || ('A' <= a <= 'Z' && b as int == a as int + 32)
      || ('A' <= b <= 'Z' && a as int == b as int + 32)
  {
  }
}

=== FILE: util.dfy ===
/** `sanitize_filename` (src-tauri/src/util.rs): the title of a track becomes a file name by keeping only
    ASCII letters and digits, space, `-` and `_`. */
module Util {

  /** `char::is_ascii_alphanumeric`. */
  predicate IsAsciiAlphanumeric(c: char) {
    ('a' <= c <= 'z') || ('A' <= c <= 'Z') || ('0' <= c <= '9')
  }

  /** The filter's test: the characters a sanitized file name may hold. */
  predicate IsFilenameChar(c: char) {
    IsAsciiAlphanumeric(c) || c == ' ' || c == '-' || c == '_'
  }

  /** `title.chars().filter(IsFilenameChar).collect()`. */
  function SanitizeFilename(title: string): (r: string)
    ensures forall i :: 0 <= i < |r| ==> IsFilenameChar(r[i])
    ensures |r| <= |title|
  {
    if title == [] then []
    else (if IsFilenameChar(title[0]) then [title[0]] else []) + SanitizeFilename(title[1..])
  }

  /** `a` is `b` with some characters deleted, the rest kept in order. */
  ghost predicate IsSubsequence(a: string, b: string)
    decreases |b|
  {
    a == [] || (b != [] && ((a[0] == b[0] && IsSubsequence(a[1..], b[1..])) || IsSubsequence(a, b[1..])))
  }

  /** `r` holds every allowed character of `title` as often as `title` does, and nothing else. */
  ghost predicate KeepsExactlyAllowed(r: string, title: string) {
    forall c :: multiset(r)[c] == if IsFilenameChar(c) then multiset(title)[c] else 0
  }

  /** The output keeps the input's order: it is a subsequence of the title. */
  lemma {:induction false} SanitizeIsSubsequence(title: string)
    ensures IsSubsequence(SanitizeFilename(title), title)
    decreases |title|
  {
    if title != [] {
      var rest := SanitizeFilename(title[1..]);
      SanitizeIsSubsequence(title[1..]);
      if IsFilenameChar(title[0]) {
        assert SanitizeFilename(title) == [title[0]] + rest;
        assert ([title[0]] + rest)[1..] == rest;
      } else {
        assert SanitizeFilename(title) == rest;
      }
    }
  }

  /** Exactly the disallowed characters are removed: every allowed one survives, as often as it occurs. */
  lemma {:induction false} SanitizeKeepsExactlyAllowed(title: string)
    ensures KeepsExactlyAllowed(SanitizeFilename(title), title)
    decreases |title|
  {
    if title != [] {
      SanitizeKeepsExactlyAllowed(title[1..]);
      assert title == [title[0]] + title[1..];
      assert multiset(title) == multiset{title[0]} + multiset(title[1..]);
      var rest := SanitizeFilename(title[1..]);
      if IsFilenameChar(title[0]) {
        assert multiset(SanitizeFilename(title)) == multiset{title[0]} + multiset(rest);
      } else {
        assert multiset(SanitizeFilename(title)) == multiset(rest);
      }
    }
  }

  lemma {:induction false} SubsequenceMultiset(a: string, b: string)
    requires IsSubsequence(a, b)
    ensures multiset(a) <= multiset(b)
    decreases |b|
  {
    if a != [] {
      assert b == [b[0]] + b[1..];
      if a[0] == b[0] && IsSubsequence(a[1..], b[1..]) {
        SubsequenceMultiset(a[1..], b[1..]);
        assert a == [a[0]] + a[1..];
      } else {
        SubsequenceMultiset(a, b[1..]);
      }
    }
  }

  /** The two properties above pin the output down: a subsequence of the title that keeps exactly its
      allowed characters IS the sanitized title. */
  lemma {:induction false} SanitizeUnique(title: string, r: string)
    requires IsSubsequence(r, title) && KeepsExactlyAllowed(r, title)
    ensures r == SanitizeFilename(title)
    decreases |title|
  {
    if title == [] {
      assert multiset(r) == multiset{};
    } else {
      var x, t := title[0], title[1..];
      assert title == [x] + t;
      assert multiset(title) == multiset{x} + multiset(t);
      if IsFilenameChar(x) {
        assert multiset(r)[x] == multiset(t)[x] + 1;
        assert r != [];
        if !(r[0] == x && IsSubsequence(r[1..], t)) {
          SubsequenceMultiset(r, t);
          assert false;
        }
        assert r == [x] + r[1..];
        assert multiset(r) == multiset{x} + multiset(r[1..]);
        SanitizeUnique(t, r[1..]);
        assert SanitizeFilename(title) == [x] + SanitizeFilename(t);
      } else {
        assert multiset(r)[x] == 0;
        assert r != [] ==> r[0] in multiset(r);
        assert IsSubsequence(r, t);
        SanitizeUnique(t, r);
        assert SanitizeFilename(title) == SanitizeFilename(t);
      }
    }
  }

  /** A string made only of allowed characters passes through unchanged. */
  lemma {:induction false} SanitizeKeepsClean(s: string)
    requires forall i :: 0 <= i < |s| ==> IsFilenameChar(s[i])
    ensures SanitizeFilename(s) == s
    decreases |s|
  {
    if s != [] {
      SanitizeKeepsClean(s[1..]);
      assert s == [s[0]] + s[1..];
    }
  }

  /** Sanitizing twice is sanitizing once. */
  lemma SanitizeIdempotent(title: string)
    ensures SanitizeFilename(SanitizeFilename(title)) == SanitizeFilename(title)
  {
    SanitizeKeepsClean(SanitizeFilename(title));
  }

  /** The filter works character by character, so it distributes over concatenation. */
  lemma {:induction false} SanitizeConcat(a: string, b: string)
    ensures SanitizeFilename(a + b) == SanitizeFilename(a) + SanitizeFilename(b)
    decreases |a|
  {
    if a == [] {
      assert a + b == b;
    } else {
      assert (a + b)[0] == a[0] && (a + b)[1..] == a[1..] + b;
      SanitizeConcat(a[1..], b);
    }
  }

  /** Characters beyond ASCII, letters included, are always dropped: a title written wholly in them
      yields the empty name. */
  lemma {:induction false} SanitizeDropsNonAscii(title: string)
    requires forall i :: 0 <= i < |title| ==> title[i] > '\U{007F}'
    ensures SanitizeFilename(title) == []
    decreases |title|
  {
    if title != [] {
      SanitizeDropsNonAscii(title[1..]);
    }
  }

  lemma SanitizeExample()
    ensures SanitizeFilename("é/a b") == "a b"
  {
  }
}

=== FILE: wrappers.dfy ===
/** Failure-carrying values shared by the modules of the model. */
module Wrappers {

  /** Rust's `Option<T>` and the TypeScript `T | null`. */
  datatype Option<+T> = None | Some(value: T)

  /** Rust's `io::Result<T>`: an error carries the text its `Display` shows. */
  datatype Result<+T> = Ok(value: T) | Err(error: string)

  /** How an async task ends: with a value, or by a panic that unwinds it (an `unwrap` on `None` or `Err`). */
  datatype Task<+T> = Done(value: T) | Panicked
}
